=== FILE: README.md ===
# fedora-migrate: the resumable migration core, in Dafny

This project models the core of fedora-migrate: it moves objects out of a Fedora 3
repository into Hydra/CurationConcerns works. The model covers four parts.

- **Target resolution** in the three constructor classes. Fedora 3 content-model tags are
  mapped to class names through an alias table. The first candidate that "vets" (names an
  existing class) is the target. When no candidate vets, the constructor raises
  "No qualified targets found in <pid>".
- **Per-object construction**:
  - The generic constructor sets only the title list.
  - The voting-record constructor builds a public work with one RECORD-XML file set, the
    seven descriptive fields and `f3_pid`.
  - The Tufts constructor builds a public work with one file set per payload stream that has
    content, the descriptive fields, `legacy_pid`, and the `relsext_*` values found in
    RELS-EXT.
- **The object mover** runs its stages in a fixed order: prepare, RDF conversions, content
  datastreams, permissions, dates, complete. It fills the report from what each stage returns.
- **The batch driver** is shared by `RepositoryMigrator` and `RepositoryVerifier`, together
  with its ledger, the JSON results file of pid → {status, object, relationships}.
  - An object is attempted only when it is not blacklisted and its recorded status is not true.
  - A pending record (status false) is saved before the attempt. The final record is saved
    after it, whatever the mover does.
  - The relationship pass halts while failures exist, unless it is forced.

The Ruby collaborators are parameters of the model: `constantize`, `respond_to?`, the
sub-movers, the repository lookup, the id minter and the outcome of each `save`. Each
parameter's outcome is whatever the caller supplies, and every property below holds for all
of them. Some Ruby calls could raise where the model gives them no failure outcome; the
section "Left out" names each one. Exceptions are `Result` failures carrying an
`Exception(className, message, backtrace)` value. `nil` is `None`.

Modules, one per Ruby class plus shared vocabulary:

- `Wrappers`: Option, Result.
- `Errors`: exceptions and their `inspect` text.
- `Text`: string helpers.
- `Fedora3`: legacy objects, datastreams, pre-parsed XML.
- `Destination`: works, file sets, the descriptive field rules.
- `Resolution`: candidates and target vetting.
- `TargetConstructor`, `VotingRecordTargetConstructor`, `TuftsTargetConstructor`: the three constructors.
- `ObjectMover`: the object mover.
- `Ledger`: the results file.
- `BatchDriver`: the shared batch loop.
- `RepositoryMigrator`, `RepositoryVerifier`: the two drivers.

Behaviour the model keeps as the code has it:

- The descriptive fields are assigned even when no element matches:
  `process_metadata_field` returns `[]` and the caller assigns that empty list
  (tufts_target_constructor.rb:126-148).
- A failed object is recorded with status false and the batch moves on to the next
  object. The object is not retried within the run (repository_migrator.rb:56-64).
- The migrator's qualification is the single hard-coded election-record pid. The namespace
  match is commented out in `qualifying_object` (repository_migrator.rb:80-85).
- The verifier's namespace test is `name.match(namespace)`. For a literal namespace
  (no regular-expression metacharacters) this is a substring test, not an equality
  (repository_verifier.rb:88-91).
- The descriptive and title queries use the `dc:` prefix. Nokogiri raises an XPath syntax
  error ("Undefined namespace prefix") when DCA-META has no root element or its root does
  not declare `dc`, and that error ends `build`.
- Creating an object mover builds its target (`post_initialize`), so a build that raises
  ends the call before `migrate` takes any step (object_mover.rb:17-20).

## Model

| member | source | states |
|---|---|---|
| Resolution.Candidates | lib/fedora_migrate/tufts_target_constructor.rb:214-240 | one candidate per model tag, in order; a tag in the alias table becomes its class name, any other tag passes through unchanged |
| Resolution.FirstVetted | lib/fedora_migrate/tufts_target_constructor.rb:202-212 | no target exactly when every candidate is rejected by vetting; otherwise the target is the vetted class of the first candidate that vets, and every earlier one was rejected |
| Resolution.EagerResolutionAgrees | lib/fedora_migrate/target_constructor.rb:44-65 | `map { vet }.compact.first` picks the same target as stopping at the first candidate that vets |
| Resolution.TuftsAliasesNotInjective | lib/fedora_migrate/tufts_target_constructor.rb:226-229 | the Audio and Audio.OralHistory tags resolve to the same class, TuftsAudio |
| Resolution.VotingRecordAliasAgrees | lib/fedora_migrate/voting_record_target_constructor.rb:104-112 | the voting-record table maps a tag as the Tufts table does exactly when the tag is the VotingRecord tag or one the Tufts table does not alias |
| Resolution.TuftsCandidatesIdempotent | lib/fedora_migrate/tufts_target_constructor.rb:214-240 | mapping candidates a second time changes nothing: no alias produces another aliased tag |
| Resolution.NotTuftsAliased | lib/fedora_migrate/tufts_target_constructor.rb:214-240 | a name starting with 'T', as every Tufts class name does, is no tag of the alias table and passes through unchanged |
| Resolution.TuftsAliasSettles | lib/fedora_migrate/tufts_target_constructor.rb:214-240 | aliasing a tag twice gives the same class as aliasing it once |
| Resolution.ResolutionIsOrderSensitive | lib/fedora_migrate/tufts_target_constructor.rb:202-205 | with both PDF and TEI vetting, the model listed first wins |
| Fedora3.StripNamespaces | lib/fedora_migrate/tufts_target_constructor.rb:108 | `remove_namespaces!` keeps every element in place with its text and attributes; each new name has no ':' and is a suffix of the old one, and when it is shorter it is the part after a ':' |
| Fedora3.Matching | lib/fedora_migrate/tufts_target_constructor.rb:141 | the `//name` query selects exactly the elements with that name, and no more than the document has |
| Fedora3.MatchingAppend | lib/fedora_migrate/tufts_target_constructor.rb:141 | the query keeps document order: over a concatenated document it is the concatenation of the queries |
| Fedora3.MatchingTextsEmpty | lib/fedora_migrate/tufts_target_constructor.rb:139-148 | a field's value list is empty exactly when no element of the document has that name |
| Fedora3.MatchingTextsAppend | lib/fedora_migrate/tufts_target_constructor.rb:139-148 | field values follow document order |
| Destination.ApplyRulesKeeps | lib/fedora_migrate/tufts_target_constructor.rb:126-137 | an attribute no rule names keeps its presence and its value |
| Destination.ApplyRulesAssigns | lib/fedora_migrate/tufts_target_constructor.rb:126-137 | when a rule is the last one for its attribute, the attribute ends up holding exactly that rule's field values |
| Destination.DescriptiveRulesAreDistinct | lib/fedora_migrate/tufts_target_constructor.rb:127-133 | the seven descriptive assignments name seven different attributes |
| Destination.DescriptiveRulesAssign | lib/fedora_migrate/voting_record_target_constructor.rb:55-61 | after the descriptive assignments, each of title, creator, contributor, description, publisher, source and language holds the texts of its dc element |
| Destination.ApplyRulesKeys | lib/fedora_migrate/tufts_target_constructor.rb:126-137 | the assignments add exactly the attributes the rules name: none is removed and no other appears |
| Destination.DescriptiveRulesKeys | lib/fedora_migrate/voting_record_target_constructor.rb:55-61 | starting from a new work, the descriptive assignments leave exactly the attributes title, creator, contributor, description, publisher, source and language |
| Destination.DescriptiveRulesUseDc | lib/fedora_migrate/voting_record_target_constructor.rb:55-61 | every descriptive query names a `dc:` element, so one declared `dc` prefix serves all seven |
| TargetConstructor.ProcessTitles | lib/fedora_migrate/target_constructor.rb:27-36 | raises the "Undefined namespace prefix" XPath error exactly when DCA-META has no root or its root does not declare `dc`; otherwise the title list is the text of every dc:title element, in document order (so it is empty exactly when there is none, and each title is some dc:title text) |
| TargetConstructor.Build | lib/fedora_migrate/target_constructor.rb:11-36 | raises "No qualified targets found in <pid>" when no target vets and the XPath error when the `dc` prefix does not resolve; succeeds exactly when neither happens, with a work of the target class, depositor ebeck01, whose only attribute is the title list, with no file sets and no public visibility; nothing else is set: no `legacy_pid`, no `f3_pid`, no `relsext_*` value |
| VotingRecordTargetConstructor.Build | lib/fedora_migrate/voting_record_target_constructor.rb:16-64 | raises "No qualified targets" when no target vets and the XPath error when the `dc` prefix does not resolve; succeeds exactly when neither happens, with a public work of the target class deposited by ebeck01, `f3_pid` = pid, one public RECORD-XML file set deposited by ebeck01 and titled with that datastream's label, and each descriptive field holding its dc texts; its attributes are exactly the seven descriptive ones, and it has no `legacy_pid` and no `relsext_*` value |
| TuftsTargetConstructor.PayloadStreams | lib/fedora_migrate/tufts_target_constructor.rb:34-40 | the primary stream first, the secondary next when given, ARCHIVAL_SOUND last when the primary is ARCHIVAL_WAV; no other stream, and one entry per call, so the count is one plus one for each of those two cases |
| TuftsTargetConstructor.CreatePayloads | lib/fedora_migrate/tufts_target_constructor.rb:60-96 | a file set for a stream exactly when that stream has content; each is public and deposited by the given depositor; GENERIC-CONTENT is titled by the basename of its link, any other stream by its label |
| TuftsTargetConstructor.CreatePayloadsAppend | lib/fedora_migrate/tufts_target_constructor.rb:34-40 | file sets are created in stream order, one call after another |
| TuftsTargetConstructor.RelsExtAssignedStep | lib/fedora_migrate/tufts_target_constructor.rb:108-123 | one turn of the property loop: setting one property's values when there are any, then the remaining properties, assigns every property's values and changes nothing else |
| TuftsTargetConstructor.ProcessRelsExt | lib/fedora_migrate/tufts_target_constructor.rb:106-124 | raises exactly when some property raises (no '#', an empty or prefixed short code, or values for a `relsext_<code>=` writer the class lacks), and then with the first such property's error; otherwise `relsext_<code>` is assigned the matching elements' first values exactly when there is at least one, and nothing else changes |
| TuftsTargetConstructor.FailsFirstWithLater | lib/fedora_migrate/tufts_target_constructor.rb:110-123 | when the first property raises nothing, the error of the first failing later property is the first failing property's error of the whole loop |
| TuftsTargetConstructor.PreparedWork | lib/fedora_migrate/tufts_target_constructor.rb:22-45 | raises the XPath error exactly when the `dc` prefix does not resolve in DCA-META; otherwise, before RELS-EXT, the work has the target class, the depositor, public visibility, the payload file sets in stream order, `legacy_pid`, each descriptive field holding its dc texts, no attribute besides the seven descriptive ones, no `f3_pid` and no `relsext_*` value |
| TuftsTargetConstructor.Build | lib/fedora_migrate/tufts_target_constructor.rb:22-58 | raises "No qualified targets" when no target vets, the XPath error when the `dc` prefix does not resolve, and otherwise the first failing RELS-EXT property's error; succeeds exactly when none of these happens, with a public work of that class, the given depositor, `legacy_pid`, the payload file sets in stream order, the descriptive fields and no other attribute, no `f3_pid`, and `relsext_*` values assigned from an empty start exactly for the properties that match |
| ObjectMover.ConstructorFor | lib/fedora_migrate/object_mover.rb:43-53 | the voting-record constructor exactly when the target_constructor option is "Elections", the generic one otherwise |
| ObjectMover.Present | lib/fedora_migrate/object_mover.rb:74-78 | the conversions actually run are exactly those the source has a datastream for |
| ObjectMover.PresentAppend | lib/fedora_migrate/object_mover.rb:11 | the conversions present keep conversion order: over a concatenated list they are those of the first part followed by those of the second |
| ObjectMover.ConvertRdfDatastreams | lib/fedora_migrate/object_mover.rb:74-78 | succeeds exactly when the RDF mover succeeds for every conversion present; a failure carries the error of the first present conversion that failed, every earlier one having succeeded; on success the RDF list gains, in order, one report per present conversion holding what the mover returned, and no other field changes |
| ObjectMover.ConvertPresent | lib/fedora_migrate/object_mover.rb:74-78 | over the conversions present: succeeds exactly when the RDF mover succeeds for each, failing with some conversion's own error; on success one report per conversion, holding what the mover returned, is appended in order and no other field changes |
| ObjectMover.ConvertRdfFailsFirst | lib/fedora_migrate/object_mover.rb:74-78 | a failed conversion run failed with the error of the first conversion the RDF mover raised for, every earlier one having succeeded |
| ObjectMover.MoveContentDatastreams | lib/fedora_migrate/object_mover.rb:66-72 | succeeds exactly when the datastream mover succeeds for every attached-file key; a failure carries the error of the first key that failed, every earlier one having succeeded; on success the content list gains, in order, one report per key holding what the mover returned, and no other field changes |
| ObjectMover.MoveEachKey | lib/fedora_migrate/object_mover.rb:68-71 | succeeds exactly when the datastream mover succeeds for every key, failing with some key's own error; on success one report per key, holding what the mover returned, is appended in order and no other field changes |
| ObjectMover.MoveContentFailsFirst | lib/fedora_migrate/object_mover.rb:68-71 | a failed content run failed with the error of the first key the datastream mover raised for, every earlier key having succeeded |
| ObjectMover.MigratePermissions | lib/fedora_migrate/object_mover.rb:84-88 | runs the permissions mover only when the source has rightsMetadata and the target class responds to `permissions`, otherwise leaving the report untouched; when it runs, it fails exactly when the mover raises, with the mover's own error, and otherwise records the mover's result |
| ObjectMover.RunStage | lib/fedora_migrate/object_mover.rb:35-92 | each stage, including the content stage's leading save and the complete stage's save, either of which can raise, takes only steps of its own rank, in order |
| ObjectMover.OrderedAppend | lib/fedora_migrate/object_mover.rb:9-15 | running one stage after an earlier one keeps the steps in stage order |
| ObjectMover.RanksBetweenOrdered | lib/fedora_migrate/object_mover.rb:9-15 | steps that all have one rank are in stage order |
| ObjectMover.RunStagesOrdered | lib/fedora_migrate/object_mover.rb:9-15 | a run of increasing stages yields its steps in stage order, within the first stage's and the last stage's ranks |
| ObjectMover.StageBoundsIncrease | lib/fedora_migrate/object_mover.rb:9-15 | in an increasing stage list, no stage ends before the first one starts |
| ObjectMover.MigrationStagesIncrease | lib/fedora_migrate/object_mover.rb:9-15 | `migrate`'s stages run RDF, content, permissions, dates, complete, in increasing order |
| ObjectMover.MigrateStagesInOrder | lib/fedora_migrate/object_mover.rb:9-20 | every run of `migrate` keeps stage order, and when the target was built it starts with prepare |
| ObjectMover.MigrateWithStagesInOrder | lib/fedora_migrate/object_mover.rb:9-20 | a build that raised leaves no step at all; a built target gives a run that starts with prepare and keeps stage order |
| ObjectMover.RunStagesKeepsPrefix | lib/fedora_migrate/object_mover.rb:9-15 | later stages only add steps after the ones already taken |
| ObjectMover.RunStagesFailureNoComplete | lib/fedora_migrate/object_mover.rb:9-15 | when complete is the last stage at most, a run that raised and took the complete step raised in complete's own save |
| ObjectMover.MigrateFailureNeverCompletes | lib/fedora_migrate/object_mover.rb:9-41 | an exception before `complete_target` ends `migrate` before the complete step; a failed run that did take it failed in the final `save` |
| ObjectMover.MigrateWithFailureNeverCompletes | lib/fedora_migrate/object_mover.rb:9-41 | for any outcome of building the target, a run that raised and took the complete step raised in the final `save` |
| ObjectMover.RunStagesUnfold | lib/fedora_migrate/object_mover.rb:9-15 | a successful stage is followed by the remaining stages on its report |
| ObjectMover.RunStagesFailed | lib/fedora_migrate/object_mover.rb:9-15 | after a failure no further stage runs |
| ObjectMover.StagesReport | lib/fedora_migrate/object_mover.rb:9-92 | a successful run of the stages had both saves succeed and every mover it called succeed; its report keeps the class, has the minted id and legacy pid, the RDF and content lists extended by exactly the movers' reports, the permissions mover's result when rightsMetadata exists and the class takes permissions (else the old value), and the dates |
| ObjectMover.MigrateWithReport | lib/fedora_migrate/object_mover.rb:9-92 | a successful `migrate` had a built target and two saves that did not raise; its report names the target's class, the minted id and the legacy pid, lists exactly the RDF mover's report for each present conversion and the datastream mover's report for each attached-file key, has permissions exactly when rightsMetadata exists and the class takes them, holding the permissions mover's result, and the dates |
| ObjectMover.MigrateUnresolvedTarget | lib/fedora_migrate/object_mover.rb:17-53 | when no candidate vets, creating the mover raises the "No qualified targets" error and `migrate` takes no step |
| Ledger.FailedPids | lib/fedora_migrate/repository_migrator.rb:50-52 | the failed objects are exactly the recorded pids whose status is not true |
| Ledger.FailedPidsAfterSave | lib/fedora_migrate/repository_migrator.rb:30-34 | a save makes its pid failed when the stored status is nil or false (the pending record included) and not failed when it is true; every other pid keeps its standing |
| Ledger.FindOrCreate | lib/fedora_migrate/repository_migrator.rb:93-99 | a recorded pid yields its stored record; any other pid yields an empty record |
| Ledger.ApplyAppend | lib/fedora_migrate/repository_migrator.rb:30-34 | saving two batches one after the other is saving their concatenation |
| Ledger.ApplyUntouched | lib/fedora_migrate/repository_migrator.rb:30-34 | a pid no save names keeps its presence and its record |
| Ledger.ApplyLastWins | lib/fedora_migrate/repository_migrator.rb:30-34 | the last save for a pid is the record kept |
| Ledger.ApplyKeys | lib/fedora_migrate/repository_migrator.rb:30-34 | after saving, the recorded pids are the old ones plus the saved ones |
| Ledger.SavedPidsAppend | lib/fedora_migrate/repository_migrator.rb:16-22 | the pids saved by two batches are the union of each batch's pids |
| BatchDriver.MigrationRequiredRules | lib/fedora_migrate/repository_migrator.rb:87-91 | an object needs migrating exactly when it is not blacklisted and its status is not true; an unrecorded pid or a pending record needs it |
| BatchDriver.FinalReport | lib/fedora_migrate/repository_migrator.rb:56-64 | status true with the mover's result on success; on failure status false, with the migrator storing the String `e.inspect` and the verifier the Array of that text followed by the backtrace lines |
| BatchDriver.RunUnfold | lib/fedora_migrate/repository_migrator.rb:16-28 | one object's saves come first, then the rest of the batch on the updated ledger |
| BatchDriver.ApplyPair | lib/fedora_migrate/repository_migrator.rb:24-34 | saving the pending record and then the final record leaves the final record |
| BatchDriver.StepPreservesRun | lib/fedora_migrate/repository_migrator.rb:16-28 | processing one more object keeps the loop's log a prefix of the whole batch's saves |
| BatchDriver.ProcessObjects | lib/fedora_migrate/repository_migrator.rb:16-64 | the loop saves exactly what the batch definition saves and leaves the ledger those saves produce; every attempt saves a pending record then its final record; a pid that does not need migrating is neither saved nor changed |
| BatchDriver.RunSavesOnlyItsObjects | lib/fedora_migrate/repository_migrator.rb:16-22 | a batch saves records only for its own objects |
| BatchDriver.RunSkipsUnrequired | lib/fedora_migrate/repository_migrator.rb:87-91 | a blacklisted or already-successful pid is never saved and its record is unchanged |
| BatchDriver.RunSkipsEveryUnrequired | lib/fedora_migrate/repository_migrator.rb:87-91 | no pid that does not need migrating is saved, and each keeps its presence and record in the ledger |
| BatchDriver.RunPendingThenFinalWithin | lib/fedora_migrate/repository_migrator.rb:24-64 | in any part of a batch, every attempt is a pending save followed by that object's final record |
| BatchDriver.RunPendingThenFinal | lib/fedora_migrate/repository_migrator.rb:24-64 | every attempt in a batch is a pending save followed by that object's final record |
| BatchDriver.RunRecordsEachObject | lib/fedora_migrate/repository_migrator.rb:56-64 | failure isolation: every object that needs migrating ends with its own final record, whatever the mover did for the other objects |
| BatchDriver.RunFailedPids | lib/fedora_migrate/repository_migrator.rb:16-52 | after a batch, the failed pids that `failures` counts are the earlier failures the batch did not retry (blacklisted or not in the batch) plus the retried pids whose mover raised; a retried pid that now succeeds is no longer failed |
| BatchDriver.ResumeSkipsEarlierSuccesses | lib/fedora_migrate/repository_migrator.rb:87-91 | a second run over the first run's ledger saves only pids that did not succeed and are not blacklisted |
| RepositoryMigrator.SourceObjects | lib/fedora_migrate/repository_migrator.rb:80-85 | the source objects are exactly the found objects with the election-record pid |
| RepositoryMigrator.UnresolvedTargetRecordedAsFailure | lib/fedora_migrate/repository_migrator.rb:56-64 | an object whose target cannot be resolved is recorded with status false and the inspected "No qualified targets" error |
| RepositoryMigrator.MigrateRelationships | lib/fedora_migrate/repository_migrator.rb:36-74 | halts, saving nothing, exactly when some object failed and the run is not forced, with the message naming the failure count; otherwise it saves exactly the relationship records, only for listed pids that are not blacklisted, and each of those ends with its earlier record and status true |
| RepositoryMigrator.RelationshipSavesMark | lib/fedora_migrate/repository_migrator.rb:36-74 | afterwards every listed pid that is not blacklisted holds its earlier record with status true; blacklisted and unlisted pids get no save |
| RepositoryVerifier.Namespace | lib/fedora_migrate/repository_verifier.rb:88-91 | the first field of the pid, which has no ':' and ends where the first ':' is; none exactly when the pid is made only of colons |
| RepositoryVerifier.Qualifies | lib/fedora_migrate/repository_verifier.rb:88-91 | raises NoMethodError exactly when the pid has no first field; otherwise qualifies exactly when the namespace occurs in that field |
| RepositoryVerifier.FoundObjects | lib/fedora_migrate/repository_verifier.rb:45-58 | failed lookups are skipped: the objects kept are exactly those some lookup found |
| RepositoryVerifier.FoundObjectsAppend | lib/fedora_migrate/repository_verifier.rb:48-58 | found objects keep pid-file order |
| RepositoryVerifier.Lookups | lib/fedora_migrate/repository_verifier.rb:47-58 | one lookup per line of the pid file, the k-th being the repository's answer for the k-th pid; an object is found exactly when some line's lookup finds it |
| RepositoryVerifier.Kept | lib/fedora_migrate/repository_verifier.rb:61 | the objects kept are exactly those that qualify |
| RepositoryVerifier.KeptAppend | lib/fedora_migrate/repository_verifier.rb:61 | qualification keeps order |
| RepositoryVerifier.FirstRaised | lib/fedora_migrate/repository_verifier.rb:48-59 | none exactly when no lookup raised an unrescued exception; otherwise the exception of the first lookup that did, every earlier lookup having found an object or failed with a rescued error |
| RepositoryVerifier.SourceObjects | lib/fedora_migrate/repository_verifier.rb:45-63 | when some lookup raises an exception other than the two rescued ones, raises the first such exception, before any object is qualified; otherwise raises NoMethodError exactly when some found object's pid has no first field; otherwise the selection is the qualifying found objects in pid-file order, duplicates kept, so an object is selected exactly when it qualifies and some pid of the pid file finds it |
| RepositoryVerifier.SelectionAppend | lib/fedora_migrate/repository_verifier.rb:45-63 | selecting over two parts of the pid file gives the first part's selection followed by the second's, so file order and duplicates are kept |
| RepositoryVerifier.NamespaceQualifies | lib/fedora_migrate/repository_verifier.rb:88-91 | a pid of the form `<namespace>:<rest>` has that namespace and qualifies |
| RepositoryVerifier.WiderNamespaceQualifies | lib/fedora_migrate/repository_verifier.rb:88-91 | a first field that merely contains the namespace also qualifies |

## Left out

- XML parsing: datastream content is given already parsed as a sequence of elements (name, text, attribute values) in document order, with the prefixes the root element declares. Nokogiri and XPath beyond the `//name` query are not modelled.
- XPath names are matched as written, prefix included. A query matches by qualified name, not by namespace URI, so a document that binds `dc` to an unusual URI still matches.
- `Errors.XPathSyntaxError`: the message is libxml2's usual text ("ERROR: Undefined namespace prefix", "ERROR: Invalid expression"). The exact wording from every libxml2 version is not modelled.
- `TuftsTargetConstructor.ProcessRelsExt`: a short code that holds characters XPath does not accept in a name, other than ':' and the empty code, is treated as a plain element name. Nokogiri would raise a syntax error for it.
- URI parsing: `File.basename(URI.parse(link).path)` is modelled as the text after the last '/'. Query strings and fragments are not stripped.
- `constantize`, `respond_to?`, the repository lookup, the id minter, the outcome of the mover's two `save` calls and the RDF, datastream, permissions and dates movers are parameters. What they do inside is not part of this model.
- The side effects of `build` are not modelled: workflow activation, Sipity entities, file-set actors, temporary files, the HTTP download of GENERIC-CONTENT.
- `TuftsTargetConstructor.Build`: these calls are taken to succeed, and the model has no outcome parameter for them:
  - the `obj.save` near the end of the Tufts `build` (tufts_target_constructor.rb:50);
  - the workflow and Sipity calls around it;
  - everything `create_and_add_payload` calls. "Succeeds exactly when" is stated with all of these succeeding.
- `TuftsTargetConstructor.PreparedWork`: the calls `create_and_add_payload` makes are taken to succeed: `URI.parse` and `File.basename` (tufts_target_constructor.rb:71-72), and the file download, the `FileSetActor` calls and `file_set.save` (tufts_target_constructor.rb:80-91). Any of them could raise in Ruby.
- `VotingRecordTargetConstructor.Build`: these calls are taken to succeed: writing and reopening `record.xml` (voting_record_target_constructor.rb:24-27), and the `User` lookup and `FileSetActor` calls (voting_record_target_constructor.rb:49-52). Any of them could raise in Ruby.
- The verifier's object verifier (`F3ObjectVerifier`) is the mover parameter of the verifier run. `MigrationReport` itself is not part of this model: saving is a map update, and `reload` is a no-op.
- `RepositoryMigrator.SourceObjects`: takes the objects the lookup at repository_migrator.rb:46 found. That `find` rescues nothing, so a lookup that raises ends `source_objects` before any selection, and the model gives that lookup no failure outcome.
- The pid file is a sequence of pids: reading, `squish` and logging are left out.
- Memoisation of `@target` and `@source_objects` is not modelled: each is computed once per call here.
- `TuftsTargetConstructor.ProcessRelsExt`: the RELS-EXT vocabulary's property list is a parameter, because the vocabulary is not part of this model.
- The `process_admin_metadata` and `process_collection_metadata` methods are left out because they are empty. `create_and_add_fcrepo3_set` is left out because no caller invokes it.
- The RELS-EXT relationship mover is commented out in `migrate_relationship`, so the relationship pass only marks status true. Its rescue branch cannot be reached and is not modelled.
- A missing datastream has a nil label in Ruby. Here it is the empty label.
- `Errors.Inspect` writes `#<Class: message>`. Ruby's exact `inspect` text for every exception class is not modelled.
- `Errors.NoQualifiedTargets` carries an empty backtrace, since backtraces are runtime data.
- `BatchDriver.RunRecordsEachObject`, `BatchDriver.RunFailedPids` and `RepositoryMigrator.UnresolvedTargetRecordedAsFailure` assume the batch's pids are distinct. With a repeated pid, the later attempt's record wins, which `Ledger.ApplyLastWins` states.
- `RepositoryMigrator.RelationshipSavesMark`: with `forced`, this also turns the status of previously failed objects to true. The model records that behaviour as the code has it.
- `BatchDriver.RunRecordsEachObject`: the model's exceptions are the `StandardError` subclasses that `rescue StandardError` catches (repository_migrator.rb:59, repository_verifier.rb:76). An `Interrupt` or another non-standard exception would stop the batch after the `ensure` save. That case is not modelled.
- `RepositoryVerifier.Qualifies`: `String#match` compiles the namespace as a regular expression. The model treats it as a literal string, which agrees only when the namespace has no metacharacters.

=== FILE: batch_driver.dfy ===
/** The resumable batch loop shared by `RepositoryMigrator#migrate_objects` and
    `RepositoryVerifier#verify_f3_objects`: for each source object in order, skip it when
    migration is not required; otherwise save a pending record, run the mover, catch any
    exception, and always save the final record. The two drivers differ only in how a
    caught exception is recorded. */
module BatchDriver {

  import opened Wrappers
  import opened Errors
  import opened Fedora3
  import opened Ledger

  datatype Driver = Migrator | Verifier

  /** `migration_required?`. */
  predicate MigrationRequired<R>(ledger: Ledger<R>, blacklist: set<string>, pid: string) {
    if pid in blacklist then false
    else if pid !in ledger then true
    else ledger[pid].status != Some(true)
  }

  /** An object is migrated again exactly when it is not blacklisted and has not succeeded:
      a missing record, a pending record and a failed one all mean "try again". */
  lemma MigrationRequiredRules<R>(ledger: Ledger<R>, blacklist: set<string>, pid: string)
    ensures MigrationRequired(ledger, blacklist, pid) <==> pid !in blacklist && !Succeeded(ledger, pid)
    ensures pid !in blacklist && pid !in ledger ==> MigrationRequired(ledger, blacklist, pid)
    ensures pid !in blacklist && pid in ledger && ledger[pid] == Pending() ==> MigrationRequired(ledger, blacklist, pid)
  {
  }

  /** The record the `ensure` clause saves after an attempt: status true with the mover's
      result, or status false with the exception as the driver renders it: the migrator
      stores the String `e.inspect`, the verifier the Array of the inspection followed by
      the backtrace lines. */
  function FinalReport<R>(driver: Driver, outcome: Result<R, Exception>): (r: ObjectReport<R>)
    ensures r.status == Some(outcome.Success?)
    ensures r.relationships.None? && r.result.Some?
    ensures outcome.Success? <==> r.result.value.MoverResult?
    ensures outcome.Success? ==> r.result.value.value == outcome.value
    ensures outcome.Failure? ==> |ErrorDetail(r.result.value)| >= 1 && ErrorDetail(r.result.value)[0] == Inspect(outcome.error)
    ensures outcome.Failure? && driver == Migrator ==> |ErrorDetail(r.result.value)| == 1
    ensures outcome.Failure? && driver == Verifier ==> ErrorDetail(r.result.value)[1..] == outcome.error.backtrace
    ensures outcome.Failure? && driver == Migrator ==> r.result.value == ErrorText(Inspect(outcome.error))
    ensures outcome.Failure? && driver == Verifier ==> r.result.value == ErrorLines([Inspect(outcome.error)] + outcome.error.backtrace)
  {
    match outcome
    case Success(v) => ObjectReport(Some(true), Some(MoverResult(v)), None)
    case Failure(e) =>
      match driver
      case Migrator => ObjectReport(Some(false), Some(ErrorText(Inspect(e))), None)
      case Verifier => ObjectReport(Some(false), Some(ErrorLines([Inspect(e)] + e.backtrace)), None)
  }

  /** The saves one object causes: none when it is skipped, otherwise the pending record
      followed by the final one. */
  function Attempt<R>(driver: Driver, ledger: Ledger<R>, blacklist: set<string>, source: LegacyObject,
                      mover: LegacyObject -> Result<R, Exception>): seq<Save<R>>
  {
    if MigrationRequired(ledger, blacklist, source.pid) then
      [Save(source.pid, Pending()), Save(source.pid, FinalReport(driver, mover(source)))]
    else []
  }

  /** The saves of a whole run, each object seeing the ledger its predecessors left. */
  function Run<R>(driver: Driver, ledger: Ledger<R>, blacklist: set<string>, objects: seq<LegacyObject>,
                  mover: LegacyObject -> Result<R, Exception>): seq<Save<R>>
    decreases |objects|
  {
    if |objects| == 0 then []
    else
      var saves := Attempt(driver, ledger, blacklist, objects[0], mover);
      saves + Run(driver, Apply(ledger, saves), blacklist, objects[1..], mover)
  }

  lemma RunUnfold<R>(driver: Driver, ledger: Ledger<R>, blacklist: set<string>, objects: seq<LegacyObject>, i: nat,
                     mover: LegacyObject -> Result<R, Exception>)
    requires i < |objects|
    ensures var saves := Attempt(driver, ledger, blacklist, objects[i], mover);
      Run(driver, ledger, blacklist, objects[i..], mover)
        == saves + Run(driver, Apply(ledger, saves), blacklist, objects[i + 1..], mover)
  {
  }

  lemma ApplyPair<R>(ledger: Ledger<R>, a: Save<R>, b: Save<R>)
    ensures Apply(ledger, [a, b]) == ledger[a.pid := a.report][b.pid := b.report]
  {
    var l1 := ledger[a.pid := a.report];
    assert [a, b][1..] == [b];
    assert Apply(ledger, [a, b]) == Apply(l1, [b]);
    assert [b][1..] == [];
    assert Apply(l1, [b]) == Apply(l1[b.pid := b.report], []);
  }

  /** One iteration of the batch loop keeps the ledger and the save log in step with `Run`. */
  lemma StepPreservesRun<R>(driver: Driver, ledger: Ledger<R>, blacklist: set<string>, objects: seq<LegacyObject>,
                            mover: LegacyObject -> Result<R, Exception>, i: nat, current: Ledger<R>, log: seq<Save<R>>)
    requires i < |objects|
    requires current == Apply(ledger, log)
    requires log + Run(driver, current, blacklist, objects[i..], mover) == Run(driver, ledger, blacklist, objects, mover)
    ensures var saves := Attempt(driver, current, blacklist, objects[i], mover);
      && Apply(current, saves) == Apply(ledger, log + saves)
      && (log + saves) + Run(driver, Apply(current, saves), blacklist, objects[i + 1..], mover)
           == Run(driver, ledger, blacklist, objects, mover)
  {
    var saves := Attempt(driver, current, blacklist, objects[i], mover);
    var rest := Run(driver, Apply(current, saves), blacklist, objects[i + 1..], mover);
    RunUnfold(driver, current, blacklist, objects, i, mover);
    LogStep(ledger, log, saves, rest);
  }

  /** Moving one object's saves from the pending part of a run to its log. */
  lemma {:induction false} LogStep<R>(ledger: Ledger<R>, log: seq<Save<R>>, saves: seq<Save<R>>, rest: seq<Save<R>>)
    ensures Apply(Apply(ledger, log), saves) == Apply(ledger, log + saves)
    ensures (log + saves) + rest == log + (saves + rest)
  {
    ApplyAppend(ledger, log, saves);
    assert (log + saves) + rest == log + (saves + rest);
  }

  /** `migrate_objects` / `verify_f3_objects` (before the final `report.reload`). */
  method ProcessObjects<R>(driver: Driver, ledger: Ledger<R>, blacklist: set<string>, objects: seq<LegacyObject>,
                           mover: LegacyObject -> Result<R, Exception>)
    returns (ledger': Ledger<R>, log: seq<Save<R>>)
    ensures log == Run(driver, ledger, blacklist, objects, mover)
    ensures ledger' == Apply(ledger, log)
    ensures PendingThenFinal(driver, objects, mover, log)
    ensures forall p :: !MigrationRequired(ledger, blacklist, p) ==>
      p !in SavedPids(log) && (p in ledger' <==> p in ledger) && (p in ledger ==> ledger'[p] == ledger[p])
  {
    ledger' := ledger;
    log := [];
    var i := 0;
    while i < |objects|
      invariant 0 <= i <= |objects|
      invariant ledger' == Apply(ledger, log)
      invariant log + Run(driver, ledger', blacklist, objects[i..], mover) == Run(driver, ledger, blacklist, objects, mover)
    {
      var source := objects[i];
      ghost var before, logBefore := ledger', log;
      ghost var saves := Attempt(driver, before, blacklist, source, mover);
      StepPreservesRun(driver, ledger, blacklist, objects, mover, i, before, logBefore);
      if MigrationRequired(ledger', blacklist, source.pid) {
        // initialize_report
        var pending := Save(source.pid, Pending());
        ledger' := ledger'[source.pid := pending.report];
        // migrate_object, whose ensure clause always saves
        var final := Save(source.pid, FinalReport(driver, mover(source)));
        ledger' := ledger'[source.pid := final.report];
        log := log + [pending, final];
        ApplyPair(before, pending, final);
        assert saves == [pending, final];
      } else {
        assert saves == [];
        assert logBefore + saves == logBefore;
      }
      assert log == logBefore + saves && ledger' == Apply(before, saves);
      i := i + 1;
    }
    assert objects[i..] == [];
    assert log + [] == log;
    RunPendingThenFinal(driver, ledger, blacklist, objects, mover);
    RunSkipsEveryUnrequired(driver, ledger, blacklist, objects, mover);
  }

  /** `RunSkipsUnrequired` for every pid at once. */
  lemma RunSkipsEveryUnrequired<R>(driver: Driver, ledger: Ledger<R>, blacklist: set<string>, objects: seq<LegacyObject>,
                                   mover: LegacyObject -> Result<R, Exception>)
    ensures var log := Run(driver, ledger, blacklist, objects, mover);
      forall p :: !MigrationRequired(ledger, blacklist, p) ==>
        p !in SavedPids(log) && (p in Apply(ledger, log) <==> p in ledger) && (p in ledger ==> Apply(ledger, log)[p] == ledger[p])
  {
    forall p | !MigrationRequired(ledger, blacklist, p)
      ensures var log := Run(driver, ledger, blacklist, objects, mover);
        p !in SavedPids(log) && (p in Apply(ledger, log) <==> p in ledger) && (p in ledger ==> Apply(ledger, log)[p] == ledger[p])
    {
      RunSkipsUnrequired(driver, ledger, blacklist, objects, mover, p);
    }
  }

  function PidsOf(objects: seq<LegacyObject>): set<string> {
    set k | 0 <= k < |objects| :: objects[k].pid
  }

  /** A run saves records only for the pids of its own objects. */
  lemma {:induction false} RunSavesOnlyItsObjects<R>(driver: Driver, ledger: Ledger<R>, blacklist: set<string>,
                                                     objects: seq<LegacyObject>, mover: LegacyObject -> Result<R, Exception>)
    ensures SavedPids(Run(driver, ledger, blacklist, objects, mover)) <= PidsOf(objects)
    decreases |objects|
  {
    if |objects| > 0 {
      var saves := Attempt(driver, ledger, blacklist, objects[0], mover);
      var rest := Run(driver, Apply(ledger, saves), blacklist, objects[1..], mover);
      RunSavesOnlyItsObjects(driver, Apply(ledger, saves), blacklist, objects[1..], mover);
      SavedPidsAppend(saves, rest);
      assert SavedPids(saves) <= {objects[0].pid};
      forall p | p in PidsOf(objects[1..]) ensures p in PidsOf(objects) {
        var k :| 0 <= k < |objects[1..]| && objects[1..][k].pid == p;
        assert objects[k + 1].pid == p;
      }
      assert objects[0].pid in PidsOf(objects);
    }
  }

  /** Skip invariant: a pid that needs no migration (blacklisted, or already succeeded) gets
      no save in the run and keeps its ledger entry, or its absence. */
  lemma {:induction false} RunSkipsUnrequired<R>(driver: Driver, ledger: Ledger<R>, blacklist: set<string>,
                                                 objects: seq<LegacyObject>, mover: LegacyObject -> Result<R, Exception>, pid: string)
    requires !MigrationRequired(ledger, blacklist, pid)
    ensures pid !in SavedPids(Run(driver, ledger, blacklist, objects, mover))
    ensures pid in Apply(ledger, Run(driver, ledger, blacklist, objects, mover)) <==> pid in ledger
    ensures pid in ledger ==> Apply(ledger, Run(driver, ledger, blacklist, objects, mover))[pid] == ledger[pid]
    decreases |objects|
  {
    var log := Run(driver, ledger, blacklist, objects, mover);
    if |objects| > 0 {
      var saves := Attempt(driver, ledger, blacklist, objects[0], mover);
      var next := Apply(ledger, saves);
      assert pid !in SavedPids(saves) by {
        if saves != [] {
          assert objects[0].pid != pid;
          assert SavedPids(saves) == {objects[0].pid};
        }
      }
      ApplyUntouched(ledger, saves, pid);
      assert !MigrationRequired(next, blacklist, pid);
      RunSkipsUnrequired(driver, next, blacklist, objects[1..], mover, pid);
      SavedPidsAppend(saves, Run(driver, next, blacklist, objects[1..], mover));
    }
    ApplyUntouched(ledger, log, pid);
  }

  /** Pending before each attempt: the save log is a sequence of pairs, a pending record
      followed by the final record of one of the objects for the same pid. */
  ghost predicate PendingThenFinal<R>(driver: Driver, objects: seq<LegacyObject>,
                                      mover: LegacyObject -> Result<R, Exception>, log: seq<Save<R>>)
    decreases |log|
  {
    |log| == 0 ||
    (&& |log| >= 2
     && log[0].report == Pending()
     && (exists k :: 0 <= k < |objects| && log[0].pid == objects[k].pid &&
           log[1] == Save(objects[k].pid, FinalReport(driver, mover(objects[k]))))
     && PendingThenFinal(driver, objects, mover, log[2..]))
  }

  lemma {:induction false} RunPendingThenFinalWithin<R>(driver: Driver, ledger: Ledger<R>, blacklist: set<string>,
                                                        objects: seq<LegacyObject>, mover: LegacyObject -> Result<R, Exception>,
                                                        all: seq<LegacyObject>)
    requires forall k :: 0 <= k < |objects| ==> objects[k] in all
    ensures PendingThenFinal(driver, all, mover, Run(driver, ledger, blacklist, objects, mover))
    decreases |objects|
  {
    if |objects| > 0 {
      var saves := Attempt(driver, ledger, blacklist, objects[0], mover);
      var rest := Run(driver, Apply(ledger, saves), blacklist, objects[1..], mover);
      RunPendingThenFinalWithin(driver, Apply(ledger, saves), blacklist, objects[1..], mover, all);
      if saves != [] {
        var k :| 0 <= k < |all| && all[k] == objects[0];
        assert (saves + rest)[2..] == rest;
        assert (saves + rest)[1] == Save(all[k].pid, FinalReport(driver, mover(all[k])));
      } else {
        assert saves + rest == rest;
      }
    }
  }

  /** Every attempt is bracketed: a pending record is saved first, then the final one. */
  lemma RunPendingThenFinal<R>(driver: Driver, ledger: Ledger<R>, blacklist: set<string>,
                               objects: seq<LegacyObject>, mover: LegacyObject -> Result<R, Exception>)
    ensures PendingThenFinal(driver, objects, mover, Run(driver, ledger, blacklist, objects, mover))
  {
    RunPendingThenFinalWithin(driver, ledger, blacklist, objects, mover, objects);
  }

  /** Failure isolation: an object that needs migrating ends with its own final record,
      whatever the mover did with the other objects of the batch. */
  lemma {:induction false} RunRecordsEachObject<R>(driver: Driver, ledger: Ledger<R>, blacklist: set<string>,
                                                   objects: seq<LegacyObject>, mover: LegacyObject -> Result<R, Exception>, i: nat)
    requires i < |objects|
    requires MigrationRequired(ledger, blacklist, objects[i].pid)
    requires forall j :: 0 <= j < |objects| && j != i ==> objects[j].pid != objects[i].pid
    ensures objects[i].pid in Apply(ledger, Run(driver, ledger, blacklist, objects, mover))
    ensures Apply(ledger, Run(driver, ledger, blacklist, objects, mover))[objects[i].pid]
      == FinalReport(driver, mover(objects[i]))
    decreases |objects|
  {
    var pid := objects[i].pid;
    var saves := Attempt(driver, ledger, blacklist, objects[0], mover);
    var next := Apply(ledger, saves);
    var rest := Run(driver, next, blacklist, objects[1..], mover);
    ApplyAppend(ledger, saves, rest);
    if i == 0 {
      ApplyPair(ledger, Save(pid, Pending()), Save(pid, FinalReport(driver, mover(objects[0]))));
      RunSavesOnlyItsObjects(driver, next, blacklist, objects[1..], mover);
      assert pid !in PidsOf(objects[1..]);
      ApplyUntouched(next, rest, pid);
    } else {
      assert objects[0].pid != pid;
      assert pid !in SavedPids(saves) by {
        if saves != [] {
          assert SavedPids(saves) == {objects[0].pid};
        }
      }
      ApplyUntouched(ledger, saves, pid);
      assert objects[1..][i - 1] == objects[i];
      RunRecordsEachObject(driver, next, blacklist, objects[1..], mover, i - 1);
    }
  }

  /** What `failures` counts after a batch whose pids are distinct: the pids that had failed
      before and were not tried again (blacklisted, or not in the batch), plus the pids
      tried in this batch whose mover raised. A retried pid that now succeeds drops out. */
  lemma {:induction false} RunFailedPids<R>(driver: Driver, ledger: Ledger<R>, blacklist: set<string>,
                         objects: seq<LegacyObject>, mover: LegacyObject -> Result<R, Exception>)
    requires forall i, j :: 0 <= i < |objects| && 0 <= j < |objects| && i != j ==> objects[i].pid != objects[j].pid
    ensures var after := Apply(ledger, Run(driver, ledger, blacklist, objects, mover));
      forall p :: p in FailedPids(after) <==>
        || (p in FailedPids(ledger) && !(p in PidsOf(objects) && MigrationRequired(ledger, blacklist, p)))
        || (MigrationRequired(ledger, blacklist, p) &&
            exists k :: 0 <= k < |objects| && objects[k].pid == p && mover(objects[k]).Failure?)
  {
    var log := Run(driver, ledger, blacklist, objects, mover);
    var after := Apply(ledger, log);
    forall p
      ensures p in FailedPids(after) <==>
        || (p in FailedPids(ledger) && !(p in PidsOf(objects) && MigrationRequired(ledger, blacklist, p)))
        || (MigrationRequired(ledger, blacklist, p) &&
            exists k :: 0 <= k < |objects| && objects[k].pid == p && mover(objects[k]).Failure?)
    {
      if p !in PidsOf(objects) {
        RunSavesOnlyItsObjects(driver, ledger, blacklist, objects, mover);
        ApplyUntouched(ledger, log, p);
        assert !exists k :: 0 <= k < |objects| && objects[k].pid == p && mover(objects[k]).Failure?;
      } else if !MigrationRequired(ledger, blacklist, p) {
        RunSkipsUnrequired(driver, ledger, blacklist, objects, mover, p);
      } else {
        var i :| 0 <= i < |objects| && objects[i].pid == p;
        RunRecordsEachObject(driver, ledger, blacklist, objects, mover, i);
        assert after[p] == FinalReport(driver, mover(objects[i]));
        assert forall k :: 0 <= k < |objects| && objects[k].pid == p ==> k == i;
      }
    }
  }

  /** Resuming: a second run over the ledger a first run left behind saves nothing for a pid
      that succeeded the first time, whatever the movers do. */
  lemma ResumeSkipsEarlierSuccesses<R>(driver: Driver, ledger: Ledger<R>, blacklist: set<string>,
                                       objects: seq<LegacyObject>, mover: LegacyObject -> Result<R, Exception>,
                                       again: seq<LegacyObject>, mover': LegacyObject -> Result<R, Exception>)
    ensures var after := Apply(ledger, Run(driver, ledger, blacklist, objects, mover));
      forall p :: p in SavedPids(Run(driver, after, blacklist, again, mover')) ==> !Succeeded(after, p) && p !in blacklist
  {
    var after := Apply(ledger, Run(driver, ledger, blacklist, objects, mover));
    forall p | Succeeded(after, p) || p in blacklist
      ensures p !in SavedPids(Run(driver, after, blacklist, again, mover'))
    {
      RunSkipsUnrequired(driver, after, blacklist, again, mover', p);
    }
  }
}

=== FILE: destination.dfy ===
/** The destination (Hydra / CurationConcerns) side: works, their file sets, and the
    declarative table that maps Dublin Core elements onto work attributes. */
module Destination {

  import opened Wrappers
  import opened Fedora3

  /** `VISIBILITY_TEXT_VALUE_PUBLIC` is `Public`; a new object starts `Private`. */
  datatype Visibility = Private | Public

  /** One content unit: the legacy stream it was built from, its title list,
      its depositor and its visibility. */
  datatype FileSet = FileSet(stream: string, title: seq<string>, depositor: string, visibility: Visibility)

  datatype Work = Work(
    className: string,
    depositor: string,
    visibility: Visibility,
    attributes: map<string, seq<string>>,
    legacyPid: Option<string>,
    f3Pid: Option<string>,
    relsext: map<string, seq<Option<string>>>,
    fileSets: seq<FileSet>)

  /** `target.new` followed by `apply_depositor_metadata`. */
  function NewWork(className: string, depositor: string): Work {
    Work(className, depositor, Private, map[], None, None, map[], [])
  }

  /** The depositor the generic and voting-record constructors hard-code. */
  const DefaultDepositor := "ebeck01"

  /** `obj.<attribute> = process_metadata_field '<element>'`. */
  datatype FieldRule = FieldRule(attribute: string, element: string)

  /** The seven descriptive assignments, in the order the constructors make them. */
  const DescriptiveRules: seq<FieldRule> := [
    FieldRule("title", "dc:title"),
    FieldRule("creator", "dc:creator"),
    FieldRule("contributor", "dc:contributor"),
    FieldRule("description", "dc:description"),
    FieldRule("publisher", "dc:publisher"),
    FieldRule("source", "dc:source"),
    FieldRule("language", "dc:language")
  ]

  /** The namespace prefix every descriptive query uses. */
  const DcPrefix := "dc"

  /** Every descriptive query names a `dc:` element, so either all of them resolve or none
      does. */
  lemma DescriptiveRulesUseDc()
    ensures forall k :: 0 <= k < |DescriptiveRules| ==> DcPrefix + ":" <= DescriptiveRules[k].element
  {
  }

  /** No later rule in the table assigns the same attribute as rule `k`. */
  predicate LastFor(rules: seq<FieldRule>, k: int)
    requires 0 <= k < |rules|
  {
    forall j :: k < j < |rules| ==> rules[j].attribute != rules[k].attribute
  }

  /** Applies the rules in table order; each assignment overwrites, even with an empty list. */
  function ApplyRules(attributes: map<string, seq<string>>, rules: seq<FieldRule>, doc: seq<Element>)
    : map<string, seq<string>>
    decreases |rules|
  {
    if |rules| == 0 then attributes
    else ApplyRules(attributes[rules[0].attribute := MatchingTexts(doc, rules[0].element)], rules[1..], doc)
  }

  /** An attribute no rule names keeps its value. */
  lemma {:induction false} ApplyRulesKeeps(
    attributes: map<string, seq<string>>, rules: seq<FieldRule>, doc: seq<Element>, a: string)
    requires forall k :: 0 <= k < |rules| ==> rules[k].attribute != a
    ensures a in attributes <==> a in ApplyRules(attributes, rules, doc)
    ensures a in attributes ==> ApplyRules(attributes, rules, doc)[a] == attributes[a]
    decreases |rules|
  {
    if |rules| > 0 {
      var next := attributes[rules[0].attribute := MatchingTexts(doc, rules[0].element)];
      assert forall k :: 0 <= k < |rules| - 1 ==> rules[1..][k] == rules[k + 1];
      ApplyRulesKeeps(next, rules[1..], doc, a);
    }
  }

  /** The last rule naming an attribute decides it: the attribute holds that rule's matching
      texts, in document order, and is present even when there are none. */
  lemma {:induction false} ApplyRulesAssigns(
    attributes: map<string, seq<string>>, rules: seq<FieldRule>, doc: seq<Element>, k: int)
    requires 0 <= k < |rules| && LastFor(rules, k)
    ensures rules[k].attribute in ApplyRules(attributes, rules, doc)
    ensures ApplyRules(attributes, rules, doc)[rules[k].attribute] == MatchingTexts(doc, rules[k].element)
    decreases |rules|
  {
    var next := attributes[rules[0].attribute := MatchingTexts(doc, rules[0].element)];
    assert forall j :: 0 <= j < |rules| - 1 ==> rules[1..][j] == rules[j + 1];
    if k == 0 {
      ApplyRulesKeeps(next, rules[1..], doc, rules[0].attribute);
    } else {
      ApplyRulesAssigns(next, rules[1..], doc, k - 1);
    }
  }

  /** Every descriptive attribute is assigned from exactly its own Dublin Core element. */
  lemma DescriptiveRulesAreDistinct()
    ensures forall k :: 0 <= k < |DescriptiveRules| ==> LastFor(DescriptiveRules, k)
  {
  }

  /** Each of the seven descriptive attributes holds the ordered texts of its own Dublin
      Core element, even when that list is empty. */
  predicate Described(attributes: map<string, seq<string>>, doc: seq<Element>) {
    forall k :: 0 <= k < |DescriptiveRules| ==>
      DescriptiveRules[k].attribute in attributes &&
      attributes[DescriptiveRules[k].attribute] == MatchingTexts(doc, DescriptiveRules[k].element)
  }

  /** The attributes a rule table assigns. */
  function RuleAttributes(rules: seq<FieldRule>): set<string> {
    set k | 0 <= k < |rules| :: rules[k].attribute
  }

  /** The seven attributes the descriptive table assigns, and no others. */
  const DescriptiveAttributes: set<string> :=
    {"title", "creator", "contributor", "description", "publisher", "source", "language"}

  /** Applying a table adds exactly the attributes it names: none is removed and no other
      key appears. */
  lemma {:induction false} ApplyRulesKeys(attributes: map<string, seq<string>>, rules: seq<FieldRule>, doc: seq<Element>)
    ensures ApplyRules(attributes, rules, doc).Keys == attributes.Keys + RuleAttributes(rules)
    decreases |rules|
  {
    if |rules| > 0 {
      var next := attributes[rules[0].attribute := MatchingTexts(doc, rules[0].element)];
      ApplyRulesKeys(next, rules[1..], doc);
      assert RuleAttributes(rules) == {rules[0].attribute} + RuleAttributes(rules[1..]) by {
        forall a | a in RuleAttributes(rules) ensures a in {rules[0].attribute} + RuleAttributes(rules[1..]) {
          var k :| 0 <= k < |rules| && rules[k].attribute == a;
          if k > 0 {
            assert rules[1..][k - 1].attribute == a;
          }
        }
        forall a | a in RuleAttributes(rules[1..]) ensures a in RuleAttributes(rules) {
          var k :| 0 <= k < |rules[1..]| && rules[1..][k].attribute == a;
          assert rules[k + 1].attribute == a;
        }
      }
    }
  }

  /** Starting from no attributes, the descriptive table leaves exactly its seven. */
  lemma DescriptiveRulesKeys(doc: seq<Element>)
    ensures ApplyRules(map[], DescriptiveRules, doc).Keys == DescriptiveAttributes
  {
    ApplyRulesKeys(map[], DescriptiveRules, doc);
    assert DescriptiveRules[0].attribute == "title";
    assert DescriptiveRules[1].attribute == "creator";
    assert DescriptiveRules[2].attribute == "contributor";
    assert DescriptiveRules[3].attribute == "description";
    assert DescriptiveRules[4].attribute == "publisher";
    assert DescriptiveRules[5].attribute == "source";
    assert DescriptiveRules[6].attribute == "language";
    assert RuleAttributes(DescriptiveRules) == DescriptiveAttributes;
  }

  /** Applying the descriptive table describes the work, whatever it held before. */
  lemma DescriptiveRulesAssign(attributes: map<string, seq<string>>, doc: seq<Element>)
    ensures Described(ApplyRules(attributes, DescriptiveRules, doc), doc)
  {
    DescriptiveRulesAreDistinct();
    forall k | 0 <= k < |DescriptiveRules|
      ensures DescriptiveRules[k].attribute in ApplyRules(attributes, DescriptiveRules, doc)
      ensures ApplyRules(attributes, DescriptiveRules, doc)[DescriptiveRules[k].attribute]
        == MatchingTexts(doc, DescriptiveRules[k].element)
    {
      ApplyRulesAssigns(attributes, DescriptiveRules, doc, k);
    }
  }
}

=== FILE: errors.dfy ===
/** Ruby exceptions as values. Only the parts the migration code looks at are kept:
    the exception's class name, its message and its backtrace lines. */
module Errors {

  datatype Exception = Exception(className: string, message: string, backtrace: seq<string>)

  const MigrationErrorClass := "FedoraMigrate::Errors::MigrationError"

  /** `Exception#inspect`: `#<ClassName: message>`. */
  function Inspect(e: Exception): string {
    "#<" + e.className + ": " + e.message + ">"
  }

  /** `Nokogiri::XML::XPath::SyntaxError`, raised when libxml2 rejects a query. */
  function XPathSyntaxError(message: string): Exception {
    Exception("Nokogiri::XML::XPath::SyntaxError", message, [])
  }

  /** A prefixed name whose prefix is not among the namespaces registered for the query. */
  const UndefinedNamespacePrefix := XPathSyntaxError("ERROR: Undefined namespace prefix")

  /** A query that is not an XPath expression, such as `//` alone. */
  const InvalidExpression := XPathSyntaxError("ERROR: Invalid expression")

  /** The error every target constructor raises when no candidate class vets. */
  function NoQualifiedTargets(pid: string): Exception {
    Exception(MigrationErrorClass, "No qualified targets found in " + pid, [])
  }
}

=== FILE: fedora3.dfy ===
/** The legacy (Fedora 3) side: objects with a pid, ordered content-model tags and named
    datastreams. XML datastreams are given already parsed, as the document-order sequence of
    their elements; for binary payloads only whether the content is nil matters. */
module Fedora3 {

  import opened Wrappers
  import opened Errors
  import Text

  /** One XML element: qualified name, text content, and its attribute values in order. */
  datatype Element = Element(name: string, text: string, attributeValues: seq<string>)

  /** A datastream's label, its content, and the namespace prefixes declared on (or in
      scope at) the root element of its XML content. */
  datatype Datastream = Datastream(labelText: string, content: Option<seq<Element>>, rootPrefixes: set<string>)

  datatype LegacyObject = LegacyObject(
    pid: string,
    models: seq<string>,
    datastreams: map<string, Datastream>)

  /** What `source.datastreams[dsid]` yields for an id the object does not have. */
  const MissingDatastream := Datastream("", None, {})

  /** The descriptive (Dublin Core) metadata datastream every constructor reads. */
  const DcaMeta := "DCA-META"

  function DatastreamOf(source: LegacyObject, dsid: string): Datastream {
    if dsid in source.datastreams then source.datastreams[dsid] else MissingDatastream
  }

  predicate HasContent(source: LegacyObject, dsid: string) {
    DatastreamOf(source, dsid).content.Some?
  }

  /** `Nokogiri::XML(content)`: nil content parses to an empty document. */
  function Document(source: LegacyObject, dsid: string): seq<Element> {
    DatastreamOf(source, dsid).content.GetOr([])
  }

  /** A prefixed query such as `xpath("//dc:title")` resolves its prefix through the
      namespaces of the document's root element. The root is the first element in document
      order, so a document without elements (nil or empty content) has none, and the query
      raises `UndefinedNamespacePrefix`. */
  predicate PrefixResolves(source: LegacyObject, dsid: string, prefix: string) {
    |Document(source, dsid)| > 0 && prefix in DatastreamOf(source, dsid).rootPrefixes
  }

  /** `remove_namespaces!`: every element keeps its place, its text and its attribute
      values; its name loses everything up to the last ':'. */
  function StripNamespaces(doc: seq<Element>): (r: seq<Element>)
    ensures |r| == |doc|
    ensures forall i :: 0 <= i < |doc| ==>
      && r[i].text == doc[i].text && r[i].attributeValues == doc[i].attributeValues
      && ':' !in r[i].name && |r[i].name| <= |doc[i].name|
      && doc[i].name == doc[i].name[..|doc[i].name| - |r[i].name|] + r[i].name
      && (|r[i].name| < |doc[i].name| ==> doc[i].name[|doc[i].name| - |r[i].name| - 1] == ':')
  {
    seq(|doc|, i requires 0 <= i < |doc| => doc[i].(name := Text.SuffixAfterLast(doc[i].name, ':')))
  }

  /** `xpath("//name")`: the elements called `name`, in document order. */
  function Matching(doc: seq<Element>, name: string): (r: seq<Element>)
    ensures |r| <= |doc|
    ensures forall e :: e in r <==> e in doc && e.name == name
    decreases |doc|
  {
    if |doc| == 0 then []
    else if doc[0].name == name then [doc[0]] + Matching(doc[1..], name)
    else Matching(doc[1..], name)
  }

  /** Document order is kept: matching a concatenation matches each part in turn. */
  lemma {:induction false} MatchingAppend(a: seq<Element>, b: seq<Element>, name: string)
    ensures Matching(a + b, name) == Matching(a, name) + Matching(b, name)
    decreases |a|
  {
    if |a| > 0 {
      assert (a + b)[0] == a[0];
      assert (a + b)[1..] == a[1..] + b;
      MatchingAppend(a[1..], b, name);
      var rest := Matching(a[1..], name);
      assert [a[0]] + (rest + Matching(b, name)) == ([a[0]] + rest) + Matching(b, name);
    } else {
      assert a + b == b;
    }
  }

  function Texts(elements: seq<Element>): (r: seq<string>)
    ensures |r| == |elements|
    ensures forall i :: 0 <= i < |elements| ==> r[i] == elements[i].text
  {
    seq(|elements|, i requires 0 <= i < |elements| => elements[i].text)
  }

  /** `process_metadata_field`: the text of every element called `name`, in document order. */
  function MatchingTexts(doc: seq<Element>, name: string): seq<string> {
    Texts(Matching(doc, name))
  }

  /** A field with no matching element maps to the empty list, and only then. */
  lemma MatchingTextsEmpty(doc: seq<Element>, name: string)
    ensures MatchingTexts(doc, name) == [] <==> forall i :: 0 <= i < |doc| ==> doc[i].name != name
  {
    if MatchingTexts(doc, name) == [] {
      forall i | 0 <= i < |doc|
        ensures doc[i].name != name
      {
        assert doc[i] in doc;
      }
    } else {
      var e := Matching(doc, name)[0];
      assert e in Matching(doc, name);
    }
  }

  /** Every matching element contributes its text, in document order: the texts of a
      concatenated document are the texts of its parts, concatenated. */
  lemma MatchingTextsAppend(a: seq<Element>, b: seq<Element>, name: string)
    ensures MatchingTexts(a + b, name) == MatchingTexts(a, name) + MatchingTexts(b, name)
  {
    MatchingAppend(a, b, name);
  }
}

=== FILE: ledger.dfy ===
/** The migration report's ledger: a map from legacy pid to the last record saved for it.
    `save` overwrites, so a pid never has two records. */
module Ledger {

  import opened Wrappers

  /** What a record's `object` field (here `result`) or `relationships` field holds: the mover's result, the
      migrator's `e.inspect`, or the verifier's inspection followed by the backtrace. */
  datatype Payload<R> = MoverResult(value: R) | ErrorText(text: string) | ErrorLines(lines: seq<string>)

  /** The lines of error detail a payload carries; a mover result carries none. */
  function ErrorDetail<R>(payload: Payload<R>): seq<string> {
    match payload
    case MoverResult(_) => []
    case ErrorText(t) => [t]
    case ErrorLines(lines) => lines
  }

  /** `SingleObjectReport`: every field may be nil. */
  datatype ObjectReport<R> = ObjectReport(
    status: Option<bool>,
    result: Option<Payload<R>>,
    relationships: Option<Payload<R>>)

  type Ledger<R> = map<string, ObjectReport<R>>

  /** One `report.save(pid, result)` call. */
  datatype Save<R> = Save(pid: string, report: ObjectReport<R>)

  /** The record `initialize_report` saves before an attempt. */
  function Pending<R>(): ObjectReport<R> {
    ObjectReport(Some(false), None, None)
  }

  /** The ledger after a sequence of saves, in order. */
  function Apply<R>(ledger: Ledger<R>, saves: seq<Save<R>>): Ledger<R>
    decreases |saves|
  {
    if |saves| == 0 then ledger
    else Apply(ledger[saves[0].pid := saves[0].report], saves[1..])
  }

  function SavedPids<R>(saves: seq<Save<R>>): set<string> {
    set k | 0 <= k < |saves| :: saves[k].pid
  }

  predicate Succeeded<R>(ledger: Ledger<R>, pid: string) {
    pid in ledger && ledger[pid].status == Some(true)
  }

  /** `failed_objects`: the pids whose stored status is not true. */
  function FailedPids<R>(ledger: Ledger<R>): (r: set<string>)
    ensures forall p :: p in r <==> p in ledger && !Succeeded(ledger, p)
  {
    set p | p in ledger && ledger[p].status != Some(true)
  }

  /** A save decides whether its own pid is failed, by the status it stores (nil and false
      alike count as failed), and leaves every other pid as it was. */
  lemma FailedPidsAfterSave<R>(ledger: Ledger<R>, s: Save<R>)
    ensures FailedPids(Apply(ledger, [s]))
      == (FailedPids(ledger) - {s.pid}) + (if s.report.status == Some(true) then {} else {s.pid})
  {
    assert [s][1..] == [];
    assert Apply(ledger, [s]) == ledger[s.pid := s.report];
  }

  /** `failures`. */
  function Failures<R>(ledger: Ledger<R>): nat {
    |FailedPids(ledger)|
  }

  /** `find_or_create_single_object_report`: the stored record, or one with every field nil. */
  function FindOrCreate<R>(ledger: Ledger<R>, pid: string): (r: ObjectReport<R>)
    ensures pid in ledger ==> r == ledger[pid]
    ensures pid !in ledger ==> r.status.None? && r.result.None? && r.relationships.None?
  {
    if pid in ledger then ObjectReport(ledger[pid].status, ledger[pid].result, ledger[pid].relationships)
    else ObjectReport(None, None, None)
  }

  /** Saving a batch is saving its parts one after the other. */
  lemma {:induction false} ApplyAppend<R>(ledger: Ledger<R>, a: seq<Save<R>>, b: seq<Save<R>>)
    ensures Apply(ledger, a + b) == Apply(Apply(ledger, a), b)
    decreases |a|
  {
    if |a| == 0 {
      assert a + b == b;
    } else {
      assert (a + b)[1..] == a[1..] + b;
      ApplyAppend(ledger[a[0].pid := a[0].report], a[1..], b);
    }
  }

  /** Saves for other pids leave a pid's entry (or its absence) alone. */
  lemma {:induction false} ApplyUntouched<R>(ledger: Ledger<R>, saves: seq<Save<R>>, pid: string)
    requires pid !in SavedPids(saves)
    ensures pid in Apply(ledger, saves) <==> pid in ledger
    ensures pid in ledger ==> Apply(ledger, saves)[pid] == ledger[pid]
    decreases |saves|
  {
    if |saves| > 0 {
      assert SavedPids(saves[1..]) <= SavedPids(saves) by {
        forall p | p in SavedPids(saves[1..]) ensures p in SavedPids(saves) {
          var k :| 0 <= k < |saves[1..]| && saves[1..][k].pid == p;
          assert saves[k + 1].pid == p;
        }
      }
      assert saves[0].pid in SavedPids(saves);
      ApplyUntouched(ledger[saves[0].pid := saves[0].report], saves[1..], pid);
    }
  }

  /** Last write wins: the final save of a pid is what the ledger holds. */
  lemma ApplyLastWins<R>(ledger: Ledger<R>, saves: seq<Save<R>>, s: Save<R>)
    ensures s.pid in Apply(ledger, saves + [s]) && Apply(ledger, saves + [s])[s.pid] == s.report
  {
    ApplyAppend(ledger, saves, [s]);
    assert [s][1..] == [];
  }

  /** The ledger's keys after a batch are the old keys plus the saved pids. */
  lemma {:induction false} ApplyKeys<R>(ledger: Ledger<R>, saves: seq<Save<R>>)
    ensures Apply(ledger, saves).Keys == ledger.Keys + SavedPids(saves)
    decreases |saves|
  {
    if |saves| > 0 {
      ApplyKeys(ledger[saves[0].pid := saves[0].report], saves[1..]);
      assert SavedPids(saves) == {saves[0].pid} + SavedPids(saves[1..]) by {
        forall p | p in SavedPids(saves) ensures p in {saves[0].pid} + SavedPids(saves[1..]) {
          var k :| 0 <= k < |saves| && saves[k].pid == p;
          if k > 0 {
            assert saves[1..][k - 1].pid == p;
          }
        }
        forall p | p in SavedPids(saves[1..]) ensures p in SavedPids(saves) {
          var k :| 0 <= k < |saves[1..]| && saves[1..][k].pid == p;
          assert saves[k + 1].pid == p;
        }
      }
    }
  }

  lemma SavedPidsAppend<R>(a: seq<Save<R>>, b: seq<Save<R>>)
    ensures SavedPids(a + b) == SavedPids(a) + SavedPids(b)
  {
    forall p | p in SavedPids(a + b) ensures p in SavedPids(a) + SavedPids(b) {
      var k :| 0 <= k < |a + b| && (a + b)[k].pid == p;
      if k >= |a| {
        assert b[k - |a|].pid == p;
      }
    }
    forall p | p in SavedPids(b) ensures p in SavedPids(a + b) {
      var k :| 0 <= k < |b| && b[k].pid == p;
      assert (a + b)[k + |a|].pid == p;
    }
    forall p | p in SavedPids(a) ensures p in SavedPids(a + b) {
      var k :| 0 <= k < |a| && a[k].pid == p;
      assert (a + b)[k].pid == p;
    }
  }
}

=== FILE: object_mover.dfy ===
/** `ObjectMover`: builds the target through the constructor the `target_constructor`
    option selects, then runs the migration stages in order, collecting a report. The
    sub-movers (RDF, content datastream, permissions, dates) are given as opaque results
    or exceptions; the first exception ends the run. */
module ObjectMover {

  import opened Wrappers
  import opened Errors
  import opened Fedora3
  import opened Destination
  import TargetConstructor
  import VotingRecordTargetConstructor
  import Resolution

  const RightsDatastream := "rightsMetadata"
  const ElectionsOption := "Elections"

  datatype ContentDatastreamReport = ContentDatastreamReport(ds: string, versions: string)
  datatype RdfDatastreamReport = RdfDatastreamReport(ds: string, status: string)

  datatype Report = Report(
    id: Option<string>,
    fedora3Pid: Option<string>,
    className: Option<string>,
    contentDatastreams: seq<ContentDatastreamReport>,
    rdfDatastreams: seq<RdfDatastreamReport>,
    permissions: Option<string>,
    dates: Option<string>)

  /** `results_report`: nothing recorded yet, both datastream report lists empty. */
  function ResultsReport(): (r: Report)
    ensures r.contentDatastreams == [] && r.rdfDatastreams == []
    ensures r.permissions.None? && r.dates.None? && r.id.None? && r.fedora3Pid.None? && r.className.None?
  {
    Report(None, None, None, [], [], None, None)
  }

  /** What a mover run depends on but this code does not compute: the options, the
      class registry (`vet`, attached files, `respond_to?(:permissions)`), the id the
      destination repository mints on save, what each of the two `save` calls raises (if
      anything), and the sub-movers' outcomes. */
  datatype Env = Env(
    targetConstructor: Option<string>,
    vet: string -> Option<string>,
    conversions: seq<string>,
    attachedFiles: string -> seq<string>,
    respondsToPermissions: string -> bool,
    mintedId: string,
    saveBeforeContent: Option<Exception>,
    saveOnComplete: Option<Exception>,
    rdfMover: string -> Result<string, Exception>,
    datastreamMover: string -> Result<string, Exception>,
    permissionsMover: Result<string, Exception>,
    datesMover: Result<string, Exception>)

  datatype Constructor = GenericConstructor | VotingRecordConstructor

  /** `target`: `Elections` selects the voting-record constructor, anything else the generic one. */
  function ConstructorFor(option: Option<string>): (c: Constructor)
    ensures c == VotingRecordConstructor <==> option == Some(ElectionsOption)
  {
    if option == Some(ElectionsOption) then VotingRecordConstructor else GenericConstructor
  }

  /** The memoised target: built once, by the selected constructor. */
  function BuildTarget(env: Env, source: LegacyObject): Result<Work, Exception> {
    match ConstructorFor(env.targetConstructor)
    case VotingRecordConstructor => VotingRecordTargetConstructor.Build(source, env.vet)
    case GenericConstructor => TargetConstructor.Build(source, env.vet)
  }

  /** The observable steps of `migrate`, one per stage entered. */
  datatype Step =
    | Prepare
    | ConvertRdf(ds: string)
    | SaveTarget
    | MoveContent(ds: string)
    | MovePermissions
    | MoveDates
    | Complete

  /** Stage position in `migrate`. */
  function Rank(s: Step): nat {
    match s
    case Prepare => 0
    case ConvertRdf(_) => 1
    case SaveTarget => 2
    case MoveContent(_) => 3
    case MovePermissions => 4
    case MoveDates => 5
    case Complete => 6
  }

  ghost predicate InStageOrder(steps: seq<Step>) {
    forall i, j :: 0 <= i < j < |steps| ==> Rank(steps[i]) <= Rank(steps[j])
  }

  ghost predicate RanksBetween(steps: seq<Step>, lo: nat, hi: nat) {
    forall i :: 0 <= i < |steps| ==> lo <= Rank(steps[i]) <= hi
  }

  /** The steps a run took and how it ended. */
  datatype MoveRun = MoveRun(steps: seq<Step>, outcome: Result<Report, Exception>)

  /** One RDF report per dsid, each holding what the RDF mover returned for it. */
  function RdfReports(env: Env, dss: seq<string>): seq<RdfDatastreamReport>
    requires forall ds :: ds in dss ==> env.rdfMover(ds).Success?
  {
    seq(|dss|, i requires 0 <= i < |dss| => RdfDatastreamReport(dss[i], env.rdfMover(dss[i]).value))
  }

  /** One content report per attached-file key, each holding the versions the datastream
      mover returned for it. */
  function ContentReports(env: Env, keys: seq<string>): seq<ContentDatastreamReport>
    requires forall ds :: ds in keys ==> env.datastreamMover(ds).Success?
  {
    seq(|keys|, i requires 0 <= i < |keys| => ContentDatastreamReport(keys[i], env.datastreamMover(keys[i]).value))
  }

  lemma RdfReportsCons(env: Env, ds: string, later: seq<string>)
    ensures (forall d :: d in [ds] + later ==> env.rdfMover(d).Success?) ==>
      RdfReports(env, [ds] + later) == [RdfDatastreamReport(ds, env.rdfMover(ds).value)] + RdfReports(env, later)
  {
  }

  lemma ContentReportsCons(env: Env, key: string, later: seq<string>)
    ensures (forall d :: d in [key] + later ==> env.datastreamMover(d).Success?) ==>
      ContentReports(env, [key] + later) == [ContentDatastreamReport(key, env.datastreamMover(key).value)] + ContentReports(env, later)
  {
  }

  /** The conversions the source actually has, in conversion order. */
  function Present(source: LegacyObject, conversions: seq<string>): (r: seq<string>)
    ensures forall ds :: ds in r <==> ds in conversions && ds in source.datastreams
    decreases |conversions|
  {
    if |conversions| == 0 then []
    else if conversions[0] in source.datastreams then [conversions[0]] + Present(source, conversions[1..])
    else Present(source, conversions[1..])
  }

  /** Filtering keeps conversion order: the conversions present in a concatenation are those
      present in its first part, then those present in its second. */
  lemma {:induction false} PresentAppend(source: LegacyObject, a: seq<string>, b: seq<string>)
    ensures Present(source, a + b) == Present(source, a) + Present(source, b)
    decreases |a|
  {
    if |a| == 0 {
      assert a + b == b;
    } else {
      assert (a + b)[1..] == a[1..] + b;
      PresentAppend(source, a[1..], b);
    }
  }

  /** `e` is what the mover raised for the first item it failed on, every earlier item
      having succeeded: the loop stops at the first exception. */
  ghost predicate FailsFirst(items: seq<string>, mover: string -> Result<string, Exception>, e: Exception) {
    exists i :: 0 <= i < |items| && mover(items[i]) == Failure(e) &&
      forall j :: 0 <= j < i ==> mover(items[j]).Success?
  }

  /** A success on the first item carries the first failure of the rest over to the whole list. */
  lemma FailsFirstLater(items: seq<string>, mover: string -> Result<string, Exception>, e: Exception)
    requires |items| > 0 && mover(items[0]).Success?
    requires FailsFirst(items[1..], mover, e)
    ensures FailsFirst(items, mover, e)
  {
    var i :| 0 <= i < |items[1..]| && mover(items[1..][i]) == Failure(e) &&
      forall j :: 0 <= j < i ==> mover(items[1..][j]).Success?;
    assert items[i + 1] == items[1..][i];
    assert forall j :: 1 <= j < i + 1 ==> items[j] == items[1..][j - 1];
  }

  /** `conversions.collect { |ds| convert_rdf_datastream(ds) }`: a conversion the source has
      no datastream for returns at once and leaves no trace, so the run is the RDF mover's
      over the conversions present. */
  function ConvertRdfDatastreams(env: Env, source: LegacyObject, conversions: seq<string>, report: Report)
    : (run: MoveRun)
    ensures RanksBetween(run.steps, 1, 1)
    ensures run.outcome.Success? <==> forall ds :: ds in Present(source, conversions) ==> env.rdfMover(ds).Success?
    ensures run.outcome.Success? ==>
      run.outcome.value == report.(rdfDatastreams := report.rdfDatastreams + RdfReports(env, Present(source, conversions)))
    ensures run.outcome.Failure? ==> FailsFirst(Present(source, conversions), env.rdfMover, run.outcome.error)
  {
    var run := ConvertPresent(env, Present(source, conversions), report);
    if run.outcome.Failure? then ConvertRdfFailsFirst(env, Present(source, conversions), report); run
    else run
  }

  /** `convert_rdf_datastream` for each conversion present, in order, until one raises. */
  function ConvertPresent(env: Env, present: seq<string>, report: Report): (run: MoveRun)
    ensures RanksBetween(run.steps, 1, 1)
    ensures run.outcome.Success? <==> forall ds :: ds in present ==> env.rdfMover(ds).Success?
    ensures run.outcome.Success? ==>
      run.outcome.value == report.(rdfDatastreams := report.rdfDatastreams + RdfReports(env, present))
    ensures run.outcome.Failure? ==> exists ds :: ds in present && env.rdfMover(ds) == Failure(run.outcome.error)
    decreases |present|
  {
    if |present| == 0 then MoveRun([], Success(report))
    else match env.rdfMover(present[0])
      case Failure(e) => MoveRun([ConvertRdf(present[0])], Failure(e))
      case Success(status) =>
        var next := report.(rdfDatastreams := report.rdfDatastreams + [RdfDatastreamReport(present[0], status)]);
        var rest := ConvertPresent(env, present[1..], next);
        assert [present[0]] + present[1..] == present;
        RdfReportsCons(env, present[0], present[1..]);
        MoveRun([ConvertRdf(present[0])] + rest.steps, rest.outcome)
  }

  /** The RDF conversions stop at the first exception: a failed run failed on the first
      present conversion the RDF mover raised for, every earlier one having succeeded. */
  lemma {:induction false} ConvertRdfFailsFirst(env: Env, present: seq<string>, report: Report)
    requires ConvertPresent(env, present, report).outcome.Failure?
    ensures FailsFirst(present, env.rdfMover, ConvertPresent(env, present, report).outcome.error)
    decreases |present|
  {
    if env.rdfMover(present[0]).Success? {
      var next := report.(rdfDatastreams := report.rdfDatastreams + [RdfDatastreamReport(present[0], env.rdfMover(present[0]).value)]);
      ConvertRdfFailsFirst(env, present[1..], next);
      FailsFirstLater(present, env.rdfMover, ConvertPresent(env, present, report).outcome.error);
    }
  }

  /** The per-key part of `migrate_content_datastreams`: one report per attached-file key, in
      key order; the first exception ends it, raised for the first key that failed. */
  function MoveContentDatastreams(env: Env, keys: seq<string>, report: Report): (run: MoveRun)
    ensures RanksBetween(run.steps, 3, 3)
    ensures run.outcome.Success? <==> forall ds :: ds in keys ==> env.datastreamMover(ds).Success?
    ensures run.outcome.Success? ==>
      run.outcome.value == report.(contentDatastreams := report.contentDatastreams + ContentReports(env, keys))
    ensures run.outcome.Failure? ==> FailsFirst(keys, env.datastreamMover, run.outcome.error)
  {
    var run := MoveEachKey(env, keys, report);
    if run.outcome.Failure? then MoveContentFailsFirst(env, keys, report); run
    else run
  }

  /** `DatastreamMover#migrate` for each key, in order, until one raises. */
  function MoveEachKey(env: Env, keys: seq<string>, report: Report): (run: MoveRun)
    ensures RanksBetween(run.steps, 3, 3)
    ensures run.outcome.Success? <==> forall ds :: ds in keys ==> env.datastreamMover(ds).Success?
    ensures run.outcome.Success? ==>
      run.outcome.value == report.(contentDatastreams := report.contentDatastreams + ContentReports(env, keys))
    ensures run.outcome.Failure? ==> exists ds :: ds in keys && env.datastreamMover(ds) == Failure(run.outcome.error)
    decreases |keys|
  {
    if |keys| == 0 then MoveRun([], Success(report))
    else match env.datastreamMover(keys[0])
      case Failure(e) => MoveRun([MoveContent(keys[0])], Failure(e))
      case Success(versions) =>
        var next := report.(contentDatastreams := report.contentDatastreams + [ContentDatastreamReport(keys[0], versions)]);
        var rest := MoveEachKey(env, keys[1..], next);
        assert [keys[0]] + keys[1..] == keys;
        ContentReportsCons(env, keys[0], keys[1..]);
        MoveRun([MoveContent(keys[0])] + rest.steps, rest.outcome)
  }

  /** The content moves stop at the first exception: a failed run failed on the first key the
      datastream mover raised for, every earlier key having succeeded. */
  lemma {:induction false} MoveContentFailsFirst(env: Env, keys: seq<string>, report: Report)
    requires MoveEachKey(env, keys, report).outcome.Failure?
    ensures FailsFirst(keys, env.datastreamMover, MoveEachKey(env, keys, report).outcome.error)
    decreases |keys|
  {
    if env.datastreamMover(keys[0]).Success? {
      var next := report.(contentDatastreams := report.contentDatastreams + [ContentDatastreamReport(keys[0], env.datastreamMover(keys[0]).value)]);
      MoveContentFailsFirst(env, keys[1..], next);
      FailsFirstLater(keys, env.datastreamMover, MoveEachKey(env, keys, report).outcome.error);
    }
  }

  /** `migrate_permissions`: only when the source has rightsMetadata and the target class
      responds to `permissions`; otherwise the report is left as it is. */
  function MigratePermissions(env: Env, source: LegacyObject, target: Work, report: Report): (run: MoveRun)
    ensures RanksBetween(run.steps, 4, 4)
    ensures !(RightsDatastream in source.datastreams && env.respondsToPermissions(target.className)) ==>
      run == MoveRun([], Success(report))
    ensures RightsDatastream in source.datastreams && env.respondsToPermissions(target.className) ==>
      run.steps == [MovePermissions] && run.outcome.Success? == env.permissionsMover.Success? &&
      (run.outcome.Success? ==> run.outcome.value == report.(permissions := Some(env.permissionsMover.value))) &&
      (run.outcome.Failure? ==> run.outcome.error == env.permissionsMover.error)
  {
    if !(RightsDatastream in source.datastreams && env.respondsToPermissions(target.className)) then
      MoveRun([], Success(report))
    else match env.permissionsMover
      case Failure(e) => MoveRun([MovePermissions], Failure(e))
      case Success(p) => MoveRun([MovePermissions], Success(report.(permissions := Some(p))))
  }

  /** The stages `migrate` runs after prepare, in order. */
  datatype Stage = RdfStage | ContentStage | PermissionsStage | DatesStage | CompleteStage

  const MigrationStages: seq<Stage> := [RdfStage, ContentStage, PermissionsStage, DatesStage, CompleteStage]

  /** The lowest and highest step rank a stage can produce. */
  function Low(stage: Stage): nat {
    match stage
    case RdfStage => 1
    case ContentStage => 2
    case PermissionsStage => 4
    case DatesStage => 5
    case CompleteStage => 6
  }

  function High(stage: Stage): nat {
    match stage
    case RdfStage => 1
    case ContentStage => 3
    case PermissionsStage => 4
    case DatesStage => 5
    case CompleteStage => 6
  }

  /** One stage on the report so far, for the built target. The content stage first saves
      the target and the complete stage ends with a save; either save can raise.
      `complete_target` records the id minted when the target was saved and the legacy pid. */
  function RunStage(env: Env, source: LegacyObject, target: Work, stage: Stage, report: Report): (run: MoveRun)
    ensures InStageOrder(run.steps) && RanksBetween(run.steps, Low(stage), High(stage))
  {
    match stage
    case RdfStage =>
      var run := ConvertRdfDatastreams(env, source, env.conversions, report);
      RanksBetweenOrdered(run.steps, 1);
      run
    case ContentStage =>
      (match env.saveBeforeContent
       case Some(e) => MoveRun([SaveTarget], Failure(e))
       case None =>
         var moved := MoveContentDatastreams(env, env.attachedFiles(target.className), report);
         RanksBetweenOrdered(moved.steps, 3);
         OrderedAppend([SaveTarget], moved.steps, 2, 2, 3);
         MoveRun([SaveTarget] + moved.steps, moved.outcome))
    case PermissionsStage =>
      var run := MigratePermissions(env, source, target, report);
      RanksBetweenOrdered(run.steps, 4);
      run
    case DatesStage =>
      (match env.datesMover
       case Failure(e) => MoveRun([MoveDates], Failure(e))
       case Success(d) => MoveRun([MoveDates], Success(report.(dates := Some(d)))))
    case CompleteStage =>
      (match env.saveOnComplete
       case Some(e) => MoveRun([Complete], Failure(e))
       case None => MoveRun([Complete], Success(report.(id := Some(env.mintedId), fedora3Pid := Some(source.pid)))))
  }

  /** Runs the stages in order; the first exception ends the run. */
  function RunStages(env: Env, source: LegacyObject, target: Work, run: MoveRun, stages: seq<Stage>): MoveRun
    decreases |stages|
  {
    if |stages| == 0 then run
    else match run.outcome
      case Failure(_) => run
      case Success(report) =>
        var n := RunStage(env, source, target, stages[0], report);
        RunStages(env, source, target, MoveRun(run.steps + n.steps, n.outcome), stages[1..])
  }

  /** `ObjectMover.new(source, ...).migrate` given the outcome of building the target.
      Creating the mover builds it (`post_initialize` asks for `target`), so a build that
      raised ends the call before `migrate` takes any step; otherwise `prepare_target` names
      the target's class in a fresh report and the stages run on it. */
  function MigrateWith(env: Env, source: LegacyObject, built: Result<Work, Exception>): MoveRun {
    match built
    case Failure(e) => MoveRun([], Failure(e))
    case Success(target) =>
      RunStages(env, source, target, MoveRun([Prepare], Success(ResultsReport().(className := Some(target.className)))), MigrationStages)
  }

  /** The mover built by the `target_constructor` option's constructor, then `migrate`. */
  function Migrate(env: Env, source: LegacyObject): MoveRun {
    MigrateWith(env, source, BuildTarget(env, source))
  }

  lemma RanksBetweenOrdered(steps: seq<Step>, k: nat)
    requires RanksBetween(steps, k, k)
    ensures InStageOrder(steps)
  {
  }

  /** Two blocks of steps, the second starting no earlier than the first ends, stay in order. */
  lemma OrderedAppend(a: seq<Step>, b: seq<Step>, lo: nat, mid: nat, hi: nat)
    requires InStageOrder(a) && RanksBetween(a, lo, mid)
    requires InStageOrder(b) && RanksBetween(b, mid, hi)
    requires lo <= mid <= hi
    ensures InStageOrder(a + b) && RanksBetween(a + b, lo, hi)
  {
  }

  /** Running stages whose ranks increase keeps the steps in stage order, and a run that
      ends in success has gone through the last stage. */
  lemma {:induction false} RunStagesOrdered(env: Env, source: LegacyObject, target: Work, run: MoveRun, stages: seq<Stage>, lo: nat)
    requires |stages| > 0
    requires InStageOrder(run.steps) && RanksBetween(run.steps, lo, Low(stages[0]))
    requires forall k :: 0 <= k < |stages| - 1 ==> High(stages[k]) <= Low(stages[k + 1])
    requires lo <= Low(stages[0])
    ensures InStageOrder(RunStages(env, source, target, run, stages).steps)
    ensures RanksBetween(RunStages(env, source, target, run, stages).steps, lo, High(stages[|stages| - 1]))
    decreases |stages|
  {
    if run.outcome.Success? {
      var n := RunStage(env, source, target, stages[0], run.outcome.value);
      OrderedAppend(run.steps, n.steps, lo, Low(stages[0]), High(stages[0]));
      var next := MoveRun(run.steps + n.steps, n.outcome);
      if |stages| > 1 {
        RunStagesOrdered(env, source, target, next, stages[1..], lo);
      }
    } else {
      assert forall k :: 0 <= k < |stages| ==> Low(stages[0]) <= High(stages[k]) by {
        forall k | 0 <= k < |stages| ensures Low(stages[0]) <= High(stages[k]) {
          StageBoundsIncrease(stages, k);
        }
      }
    }
  }

  lemma {:induction false} StageBoundsIncrease(stages: seq<Stage>, k: nat)
    requires 0 <= k < |stages|
    requires forall j :: 0 <= j < |stages| - 1 ==> High(stages[j]) <= Low(stages[j + 1])
    ensures Low(stages[0]) <= High(stages[k])
  {
    if k > 0 {
      StageBoundsIncrease(stages, k - 1);
    }
  }

  /** `migrate` never goes back to an earlier stage: its steps are in stage order and start
      with prepare; when the build raised, no step is taken at all. */
  lemma MigrateWithStagesInOrder(env: Env, source: LegacyObject, built: Result<Work, Exception>)
    ensures InStageOrder(MigrateWith(env, source, built).steps)
    ensures built.Failure? ==> MigrateWith(env, source, built).steps == []
    ensures built.Success? ==> |MigrateWith(env, source, built).steps| >= 1 && MigrateWith(env, source, built).steps[0] == Prepare
  {
    if built.Success? {
      var prepared := MoveRun([Prepare], Success(ResultsReport().(className := Some(built.value.className))));
      MigrationStagesIncrease();
      RunStagesOrdered(env, source, built.value, prepared, MigrationStages, 0);
      RunStagesKeepsPrefix(env, source, built.value, prepared, MigrationStages);
    }
  }

  lemma MigrateStagesInOrder(env: Env, source: LegacyObject)
    ensures InStageOrder(Migrate(env, source).steps)
    ensures BuildTarget(env, source).Success? ==> |Migrate(env, source).steps| >= 1 && Migrate(env, source).steps[0] == Prepare
  {
    MigrateWithStagesInOrder(env, source, BuildTarget(env, source));
  }

  lemma MigrationStagesIncrease()
    ensures Low(MigrationStages[0]) == 1
    ensures forall k :: 0 <= k < |MigrationStages| - 1 ==> High(MigrationStages[k]) <= Low(MigrationStages[k + 1])
  {
  }

  lemma {:induction false} RunStagesKeepsPrefix(env: Env, source: LegacyObject, target: Work, run: MoveRun, stages: seq<Stage>)
    ensures run.steps <= RunStages(env, source, target, run, stages).steps
    decreases |stages|
  {
    if |stages| > 0 && run.outcome.Success? {
      var n := RunStage(env, source, target, stages[0], run.outcome.value);
      RunStagesKeepsPrefix(env, source, target, MoveRun(run.steps + n.steps, n.outcome), stages[1..]);
    }
  }

  /** With complete as the last stage at most, a run that failed and took the complete step
      failed in complete's own save. */
  lemma {:induction false} RunStagesFailureNoComplete(env: Env, source: LegacyObject, target: Work, run: MoveRun, stages: seq<Stage>)
    requires Complete !in run.steps
    requires forall k :: 0 <= k < |stages| - 1 ==> stages[k] != CompleteStage
    ensures var last := RunStages(env, source, target, run, stages);
      last.outcome.Failure? && Complete in last.steps ==> env.saveOnComplete == Some(last.outcome.error)
    decreases |stages|
  {
    if |stages| > 0 && run.outcome.Success? {
      var n := RunStage(env, source, target, stages[0], run.outcome.value);
      var next := MoveRun(run.steps + n.steps, n.outcome);
      if stages[0] != CompleteStage {
        assert Complete !in n.steps;
        RunStagesFailureNoComplete(env, source, target, next, stages[1..]);
      } else {
        assert |stages| == 1;
      }
    }
  }

  /** An exception raised before `complete_target` ends the run before it: a failed run
      that took the complete step failed in the final save. */
  lemma MigrateWithFailureNeverCompletes(env: Env, source: LegacyObject, built: Result<Work, Exception>)
    requires MigrateWith(env, source, built).outcome.Failure?
    ensures Complete in MigrateWith(env, source, built).steps ==>
      env.saveOnComplete == Some(MigrateWith(env, source, built).outcome.error)
  {
    if built.Success? {
      var prepared := MoveRun([Prepare], Success(ResultsReport().(className := Some(built.value.className))));
      RunStagesFailureNoComplete(env, source, built.value, prepared, MigrationStages);
    }
  }

  lemma MigrateFailureNeverCompletes(env: Env, source: LegacyObject)
    requires Migrate(env, source).outcome.Failure?
    ensures Complete in Migrate(env, source).steps ==> env.saveOnComplete == Some(Migrate(env, source).outcome.error)
  {
    MigrateWithFailureNeverCompletes(env, source, BuildTarget(env, source));
  }

  /** One stage step of `RunStages` on a successful run. */
  lemma RunStagesUnfold(env: Env, source: LegacyObject, target: Work, steps: seq<Step>, report: Report, stages: seq<Stage>)
    requires |stages| > 0
    ensures var n := RunStage(env, source, target, stages[0], report);
      RunStages(env, source, target, MoveRun(steps, Success(report)), stages)
        == RunStages(env, source, target, MoveRun(steps + n.steps, n.outcome), stages[1..])
  {
  }

  lemma RunStagesFailed(env: Env, source: LegacyObject, target: Work, run: MoveRun, stages: seq<Stage>)
    requires run.outcome.Failure?
    ensures RunStages(env, source, target, run, stages) == run
  {
  }

  /** The report fields each stage of a successful run contributes. */
  lemma {:induction false} StagesReport(env: Env, source: LegacyObject, target: Work, steps: seq<Step>, r0: Report)
    requires RunStages(env, source, target, MoveRun(steps, Success(r0)), MigrationStages).outcome.Success?
    ensures var report := RunStages(env, source, target, MoveRun(steps, Success(r0)), MigrationStages).outcome.value;
      && env.saveBeforeContent.None? && env.saveOnComplete.None?
      && report.className == r0.className
      && report.id == Some(env.mintedId)
      && report.fedora3Pid == Some(source.pid)
      && (forall ds :: ds in Present(source, env.conversions) ==> env.rdfMover(ds).Success?)
      && report.rdfDatastreams == r0.rdfDatastreams + RdfReports(env, Present(source, env.conversions))
      && (forall ds :: ds in env.attachedFiles(target.className) ==> env.datastreamMover(ds).Success?)
      && report.contentDatastreams == r0.contentDatastreams + ContentReports(env, env.attachedFiles(target.className))
      && (RightsDatastream in source.datastreams && env.respondsToPermissions(target.className) ==>
            env.permissionsMover.Success? && report.permissions == Some(env.permissionsMover.value))
      && (!(RightsDatastream in source.datastreams && env.respondsToPermissions(target.className)) ==> report.permissions == r0.permissions)
      && env.datesMover.Success? && report.dates == Some(env.datesMover.value)
  {
  }

  /** A successful `migrate` had a built target and two saves that did not raise. Its
      report, started empty, names the target's class and minted id and the legacy pid,
      holds what the RDF mover returned for each conversion the source has and what the
      datastream mover returned for each attached-file key, the permissions mover's result
      exactly when the source has rightsMetadata and the class takes permissions, and the
      dates. */
  lemma MigrateWithReport(env: Env, source: LegacyObject, built: Result<Work, Exception>)
    requires MigrateWith(env, source, built).outcome.Success?
    ensures built.Success? && env.saveBeforeContent.None? && env.saveOnComplete.None?
    ensures var report := MigrateWith(env, source, built).outcome.value;
      && report.className == Some(built.value.className)
      && report.id == Some(env.mintedId)
      && report.fedora3Pid == Some(source.pid)
      && (forall ds :: ds in Present(source, env.conversions) ==> env.rdfMover(ds).Success?)
      && report.rdfDatastreams == RdfReports(env, Present(source, env.conversions))
      && (forall ds :: ds in env.attachedFiles(built.value.className) ==> env.datastreamMover(ds).Success?)
      && report.contentDatastreams == ContentReports(env, env.attachedFiles(built.value.className))
      && (report.permissions.Some? <==> RightsDatastream in source.datastreams && env.respondsToPermissions(built.value.className))
      && (report.permissions.Some? ==> env.permissionsMover == Success(report.permissions.value))
      && env.datesMover.Success? && report.dates == Some(env.datesMover.value)
  {
    var r0 := ResultsReport().(className := Some(built.value.className));
    StagesReport(env, source, built.value, [Prepare], r0);
  }

  /** Whichever constructor is selected, an object none of whose candidates vets fails with
      the "no qualified targets" error while the mover is created, and no step is taken. */
  lemma MigrateUnresolvedTarget(env: Env, source: LegacyObject)
    requires Resolution.DetermineTarget(Resolution.VotingRecordTable, source.models, env.vet).None?
    ensures Migrate(env, source) == MoveRun([], Failure(NoQualifiedTargets(source.pid)))
  {
  }
}

=== FILE: repository_migrator.dfy ===
/** `RepositoryMigrator`: the object pass (the shared batch loop with the migrator's failure
    record), which objects qualify, and the relationship pass that refuses to run while
    failures exist unless the run is forced. */
module RepositoryMigrator {

  import opened Wrappers
  import opened Errors
  import opened Fedora3
  import opened Ledger
  import opened BatchDriver
  import Text
  import Resolution
  import ObjectMover

  /** The one pid `qualifying_object` currently lets through. */
  const ElectionRecordPid := "tufts:ky.clerkofthehouse.1813"

  predicate Qualifies(source: LegacyObject) {
    source.pid == ElectionRecordPid
  }

  /** `source_objects`: the qualifying objects among those found, in order. */
  function SourceObjects(found: seq<LegacyObject>): (r: seq<LegacyObject>)
    ensures |r| <= |found|
    ensures forall o :: o in r <==> o in found && Qualifies(o)
    decreases |found|
  {
    if |found| == 0 then []
    else if Qualifies(found[0]) then [found[0]] + SourceObjects(found[1..])
    else SourceObjects(found[1..])
  }

  /** The object pass with the object mover as the mover. */
  function MoverFor(env: ObjectMover.Env): LegacyObject -> Result<ObjectMover.Report, Exception> {
    source => ObjectMover.Migrate(env, source).outcome
  }

  /** An object none of whose candidates vets is recorded as failed, with the inspected
      "no qualified targets" error as its object, and the batch carries on. */
  lemma UnresolvedTargetRecordedAsFailure(env: ObjectMover.Env, ledger: Ledger<ObjectMover.Report>,
                                          blacklist: set<string>, objects: seq<LegacyObject>, i: nat)
    requires i < |objects|
    requires MigrationRequired(ledger, blacklist, objects[i].pid)
    requires forall j :: 0 <= j < |objects| && j != i ==> objects[j].pid != objects[i].pid
    requires Resolution.DetermineTarget(Resolution.VotingRecordTable, objects[i].models, env.vet).None?
    ensures var after := Apply(ledger, Run(Migrator, ledger, blacklist, objects, MoverFor(env)));
      objects[i].pid in after &&
      after[objects[i].pid] == ObjectReport(Some(false), Some(ErrorText(Inspect(NoQualifiedTargets(objects[i].pid)))), None)
  {
    RunRecordsEachObject(Migrator, ledger, blacklist, objects, MoverFor(env), i);
    ObjectMover.MigrateUnresolvedTarget(env, objects[i]);
  }

  datatype RelationshipsOutcome<R> = Halted(message: string) | Ran(saves: seq<Save<R>>)

  function HaltMessage(failures: nat): string {
    "Relationship migration halted because " + Text.DecimalString(failures) + " objects didn't migrate successfully."
  }

  /** The relationship pass proper: every object not blacklisted has its stored record
      rebuilt, marked with status true, and saved. */
  function RelationshipSaves<R>(ledger: Ledger<R>, blacklist: set<string>, objects: seq<LegacyObject>): seq<Save<R>>
    decreases |objects|
  {
    if |objects| == 0 then []
    else
      var pid := objects[0].pid;
      var saves := if pid in blacklist then [] else [Save(pid, FindOrCreate(ledger, pid).(status := Some(true)))];
      saves + RelationshipSaves(Apply(ledger, saves), blacklist, objects[1..])
  }

  /** `migrate_relationships`: halts with the message, saving nothing, when objects failed
      and the run is not forced. */
  function MigrateRelationships<R>(ledger: Ledger<R>, blacklist: set<string>, objects: seq<LegacyObject>, forced: bool)
    : (r: RelationshipsOutcome<R>)
    ensures r.Halted? <==> Failures(ledger) > 0 && !forced
    ensures r.Halted? ==> r.message == HaltMessage(Failures(ledger))
    ensures r.Ran? ==> r.saves == RelationshipSaves(ledger, blacklist, objects)
    ensures r.Ran? ==> forall pid :: pid in SavedPids(r.saves) ==> pid in PidsOf(objects) && pid !in blacklist
    ensures r.Ran? ==> forall pid :: pid in PidsOf(objects) && pid !in blacklist ==>
      pid in Apply(ledger, r.saves) && Apply(ledger, r.saves)[pid] == FindOrCreate(ledger, pid).(status := Some(true))
  {
    if Failures(ledger) > 0 && !forced then Halted(HaltMessage(Failures(ledger)))
    else
      var saves := RelationshipSaves(ledger, blacklist, objects);
      forall pid | pid in SavedPids(saves) || (pid in PidsOf(objects) && pid !in blacklist)
        ensures pid in SavedPids(saves) ==> pid in PidsOf(objects) && pid !in blacklist
        ensures pid in PidsOf(objects) && pid !in blacklist ==>
          pid in Apply(ledger, saves) && Apply(ledger, saves)[pid] == FindOrCreate(ledger, pid).(status := Some(true))
      {
        RelationshipSavesMark(ledger, blacklist, objects, pid);
      }
      Ran(saves)
  }

  /** After the relationship pass, every listed pid that is not blacklisted holds its
      earlier record with status true; blacklisted and unlisted pids get no save. */
  lemma {:induction false} RelationshipSavesMark<R>(ledger: Ledger<R>, blacklist: set<string>, objects: seq<LegacyObject>, pid: string)
    ensures pid in blacklist || pid !in PidsOf(objects) ==> pid !in SavedPids(RelationshipSaves(ledger, blacklist, objects))
    ensures pid !in blacklist && pid in PidsOf(objects) ==>
      var after := Apply(ledger, RelationshipSaves(ledger, blacklist, objects));
      pid in after && after[pid] == FindOrCreate(ledger, pid).(status := Some(true))
    decreases |objects|
  {
    if |objects| > 0 {
      var first := objects[0].pid;
      var saves: seq<Save<R>> := if first in blacklist then [] else [Save(first, FindOrCreate(ledger, first).(status := Some(true)))];
      var next := Apply(ledger, saves);
      var rest := RelationshipSaves(next, blacklist, objects[1..]);
      assert RelationshipSaves(ledger, blacklist, objects) == saves + rest;
      SavedPidsAppend(saves, rest);
      ApplyAppend(ledger, saves, rest);
      RelationshipSavesMark(next, blacklist, objects[1..], pid);
      assert SavedPids(saves) <= {first};
      assert [Save(first, FindOrCreate(ledger, first).(status := Some(true)))][1..] == [];
      assert PidsOf(objects) == {first} + PidsOf(objects[1..]) by {
        forall p | p in PidsOf(objects) ensures p in {first} + PidsOf(objects[1..]) {
          var k :| 0 <= k < |objects| && objects[k].pid == p;
          if k > 0 {
            assert objects[1..][k - 1].pid == p;
          }
        }
        forall p | p in PidsOf(objects[1..]) ensures p in PidsOf(objects) {
          var k :| 0 <= k < |objects[1..]| && objects[1..][k].pid == p;
          assert objects[k + 1].pid == p;
        }
      }
      if pid !in blacklist && pid in PidsOf(objects) {
        if pid != first {
          ApplyUntouched(ledger, saves, pid);
        } else if pid !in PidsOf(objects[1..]) {
          ApplyUntouched(next, rest, pid);
        }
      }
    }
  }
}

=== FILE: repository_verifier.dfy ===
/** `RepositoryVerifier`: which objects are verified (lookups that fail are skipped, the
    rest are kept when their namespace matches) and the verification pass, which is the
    shared batch loop with the verifier's failure record. */
module RepositoryVerifier {

  import opened Wrappers
  import opened Errors
  import opened Fedora3
  import opened Text

  /** The outcome of asking the source repository for one pid: the object, one of the two
      errors `source_objects` rescues and skips, or any other exception, which it does not
      rescue. */
  datatype Lookup = Found(source: LegacyObject) | InvalidRequest | RecordNotFound | Raised(error: Exception)

  /** Raised by `name.match(namespace)` when the pid has no first field. */
  const NilMatchError := Exception("NoMethodError", "undefined method `match' for nil:NilClass", [])

  predicate AllColons(pid: string) {
    forall k :: 0 <= k < |pid| ==> pid[k] == ':'
  }

  /** `pid.split(/:/).first`: splitting drops trailing empty fields, so a pid made only of
      colons (the empty pid included) has no first field. */
  function Namespace(pid: string): (r: Option<string>)
    ensures r.None? <==> AllColons(pid)
    ensures r.Some? ==> ':' !in r.value && r.value <= pid && (|r.value| < |pid| ==> pid[|r.value|] == ':')
  {
    if AllColons(pid) then None else Some(PrefixBeforeFirst(pid, ':'))
  }

  /** `qualifying_object`: the namespace, used as a literal pattern, must occur in the
      pid's first field. */
  function Qualifies(pid: string, namespace: string): (r: Result<bool, Exception>)
    ensures r.Failure? <==> AllColons(pid)
    ensures r.Failure? ==> r.error == NilMatchError
    ensures r.Success? ==> (r.value <==> Contains(Namespace(pid).value, namespace))
  {
    match Namespace(pid)
    case None => Failure(NilMatchError)
    case Some(name) => Success(Contains(name, namespace))
  }

  /** The objects actually found, in pid-file order; failed lookups are skipped. */
  function FoundObjects(lookups: seq<Lookup>): (r: seq<LegacyObject>)
    ensures |r| <= |lookups|
    ensures forall o :: o in r <==> Found(o) in lookups
    decreases |lookups|
  {
    if |lookups| == 0 then []
    else
      var rest := FoundObjects(lookups[1..]);
      assert forall l :: l in lookups <==> l == lookups[0] || l in lookups[1..];
      match lookups[0]
      case Found(source) => [source] + rest
      case _ => rest
  }

  lemma {:induction false} FoundObjectsAppend(a: seq<Lookup>, b: seq<Lookup>)
    ensures FoundObjects(a + b) == FoundObjects(a) + FoundObjects(b)
    decreases |a|
  {
    if |a| > 0 {
      assert (a + b)[0] == a[0];
      assert (a + b)[1..] == a[1..] + b;
      FoundObjectsAppend(a[1..], b);
      var rest := FoundObjects(a[1..]);
      if a[0].Found? {
        assert [a[0].source] + (rest + FoundObjects(b)) == ([a[0].source] + rest) + FoundObjects(b);
      }
    } else {
      assert a + b == b;
    }
  }

  /** Some pid among the objects has no first field, so `qualifying_object` raises. */
  predicate SomePidLacksNamespace(objects: seq<LegacyObject>) {
    exists k :: 0 <= k < |objects| && AllColons(objects[k].pid)
  }

  /** The objects `qualifying_object` keeps, in order (for objects whose pid has a first field). */
  function Kept(objects: seq<LegacyObject>, namespace: string): (r: seq<LegacyObject>)
    ensures |r| <= |objects|
    ensures forall o :: o in r <==> o in objects && Qualifies(o.pid, namespace) == Success(true)
    decreases |objects|
  {
    if |objects| == 0 then []
    else
      var rest := Kept(objects[1..], namespace);
      assert forall o :: o in objects <==> o == objects[0] || o in objects[1..];
      if Qualifies(objects[0].pid, namespace) == Success(true) then [objects[0]] + rest else rest
  }

  lemma {:induction false} KeptAppend(a: seq<LegacyObject>, b: seq<LegacyObject>, namespace: string)
    ensures Kept(a + b, namespace) == Kept(a, namespace) + Kept(b, namespace)
    decreases |a|
  {
    if |a| > 0 {
      assert (a + b)[0] == a[0];
      assert (a + b)[1..] == a[1..] + b;
      KeptAppend(a[1..], b, namespace);
    } else {
      assert a + b == b;
    }
  }

  /** The `collect`/`compact` over the found objects: the first pid without a first field
      aborts the selection with its error (every such pid raises the same error, so which one
      is first does not change the outcome); otherwise the kept objects in order. */
  function QualifyingObjects(objects: seq<LegacyObject>, namespace: string): (r: Result<seq<LegacyObject>, Exception>)
    ensures r.Failure? <==> SomePidLacksNamespace(objects)
    ensures r.Failure? ==> r.error == NilMatchError
    ensures r.Success? ==> r.value == Kept(objects, namespace)
  {
    if SomePidLacksNamespace(objects) then Failure(NilMatchError) else Success(Kept(objects, namespace))
  }

  /** Some lookup raised `e`, and no lookup before it raised anything. */
  ghost predicate RaisedFirst(lookups: seq<Lookup>, e: Exception) {
    exists k :: 0 <= k < |lookups| && lookups[k] == Raised(e) && forall j :: 0 <= j < k ==> !lookups[j].Raised?
  }

  /** The first lookup that raised an exception `source_objects` does not rescue, if any. */
  function FirstRaised(lookups: seq<Lookup>): (r: Option<Exception>)
    ensures r.None? <==> forall k :: 0 <= k < |lookups| ==> !lookups[k].Raised?
    ensures r.Some? ==> RaisedFirst(lookups, r.value)
    decreases |lookups|
  {
    if |lookups| == 0 then None
    else if lookups[0].Raised? then Some(lookups[0].error)
    else
      var rest := FirstRaised(lookups[1..]);
      assert forall k :: 0 < k < |lookups| ==> lookups[k] == lookups[1..][k - 1];
      if rest.Some? then
        var k :| 0 <= k < |lookups[1..]| && lookups[1..][k] == Raised(rest.value) &&
          forall j :: 0 <= j < k ==> !lookups[1..][j].Raised?;
        assert lookups[k + 1] == Raised(rest.value);
        rest
      else rest
  }

  /** The repository's answer for each pid of the pid file, in order. */
  function Lookups(pids: seq<string>, find: string -> Lookup): (r: seq<Lookup>)
    ensures |r| == |pids|
    ensures forall k :: 0 <= k < |pids| ==> r[k] == find(pids[k])
    ensures forall o :: Found(o) in r <==> exists k :: 0 <= k < |pids| && find(pids[k]) == Found(o)
  {
    var lookups := seq(|pids|, k requires 0 <= k < |pids| => find(pids[k]));
    assert forall k :: 0 <= k < |pids| ==> lookups[k] == find(pids[k]);
    lookups
  }

  /** `source_objects`: look every pid up, skip the two rescued lookup errors, keep the
      qualifying objects. Any other lookup exception propagates from the first pid that
      raises it, before any object is qualified; otherwise a found object whose pid has no
      first field makes the selection raise. */
  function SourceObjects(pids: seq<string>, find: string -> Lookup, namespace: string): (r: Result<seq<LegacyObject>, Exception>)
    ensures (exists k :: 0 <= k < |pids| && find(pids[k]).Raised?) ==>
      r.Failure? && RaisedFirst(Lookups(pids, find), r.error)
    ensures (forall k :: 0 <= k < |pids| ==> !find(pids[k]).Raised?) ==>
      (r.Failure? <==> exists k :: 0 <= k < |pids| && find(pids[k]).Found? && AllColons(find(pids[k]).source.pid))
    ensures (forall k :: 0 <= k < |pids| ==> !find(pids[k]).Raised?) && r.Failure? ==> r.error == NilMatchError
    ensures r.Success? ==> forall o :: o in r.value <==>
      Qualifies(o.pid, namespace) == Success(true) && exists k :: 0 <= k < |pids| && find(pids[k]) == Found(o)
    ensures r.Success? ==> r.value == Kept(FoundObjects(Lookups(pids, find)), namespace)
  {
    match FirstRaised(Lookups(pids, find))
    case Some(e) => Failure(e)
    case None =>
      var found := FoundObjects(Lookups(pids, find));
      assert SomePidLacksNamespace(found) <==> exists k :: 0 <= k < |pids| && find(pids[k]).Found? && AllColons(find(pids[k]).source.pid) by {
        if SomePidLacksNamespace(found) {
          var j :| 0 <= j < |found| && AllColons(found[j].pid);
          assert found[j] in found;
          var k :| 0 <= k < |pids| && find(pids[k]) == Found(found[j]);
        }
        if exists k :: 0 <= k < |pids| && find(pids[k]).Found? && AllColons(find(pids[k]).source.pid) {
          var k :| 0 <= k < |pids| && find(pids[k]).Found? && AllColons(find(pids[k]).source.pid);
          var o := find(pids[k]).source;
          assert o in found;
          var j :| 0 <= j < |found| && found[j] == o;
        }
      }
      QualifyingObjects(found, namespace)
  }

  /** The selection follows the pid file: selecting over two parts of the file, one after
      the other, gives the first part's selection followed by the second's, duplicates and all. */
  lemma SelectionAppend(a: seq<string>, b: seq<string>, find: string -> Lookup, namespace: string)
    ensures Kept(FoundObjects(Lookups(a + b, find)), namespace)
      == Kept(FoundObjects(Lookups(a, find)), namespace) + Kept(FoundObjects(Lookups(b, find)), namespace)
  {
    assert Lookups(a + b, find) == Lookups(a, find) + Lookups(b, find);
    FoundObjectsAppend(Lookups(a, find), Lookups(b, find));
    KeptAppend(FoundObjects(Lookups(a, find)), FoundObjects(Lookups(b, find)), namespace);
  }

  /** A pid whose first field is exactly the namespace qualifies. */
  lemma NamespaceQualifies(name: string, rest: string)
    requires |name| > 0 && ':' !in name
    ensures Namespace(name + ":" + rest) == Some(name)
    ensures Qualifies(name + ":" + rest, name) == Success(true)
  {
    var pid := name + ":" + rest;
    assert pid[0] == name[0] != ':';
    assert pid[|name|] == ':';
    assert forall k :: 0 <= k < |name| ==> pid[k] == name[k];
    assert PrefixBeforeFirst(pid, ':') == name;
    ContainsInfix([], name, []);
    assert [] + name + [] == name;
  }

  /** The match is a substring test, not equality: a longer namespace containing the
      configured one also qualifies. */
  lemma {:induction false} WiderNamespaceQualifies(before: string, name: string, after: string, rest: string)
    requires |before + name + after| > 0 && ':' !in before + name + after
    ensures Qualifies(before + name + after + ":" + rest, name) == Success(true)
  {
    NamespaceQualifies(before + name + after, rest);
    ContainsInfix(before, name, after);
  }
}

=== FILE: resolution.dfy ===
/** Target resolution shared by the three target constructors: the legacy content-model
    tags are translated through a fixed alias table into candidate class names, and the
    first candidate that vets (its id component constantizes to a class) is the target. */
module Resolution {

  import opened Wrappers

  /** Which constructor's `candidates` mapping is in use: the Tufts constructor's, or the
      one the generic and the voting-record constructors share. */
  datatype AliasTable = TuftsTable | VotingRecordTable

  const VotingRecordTag := "info:fedora/cm:VotingRecord"

  /** One content-model tag through the constructor's `if`/`elsif` chain; a tag the chain
      does not name passes through unchanged. */
  function Alias(table: AliasTable, tag: string): string {
    match table
    case VotingRecordTable => if tag == VotingRecordTag then "TuftsVotingRecord" else tag
    case TuftsTable =>
      if tag == "info:fedora/cm:Text.PDF" then "TuftsPdf"
      else if tag == "info:fedora/cm:Text.TEI" then "TuftsTei"
      else if tag == VotingRecordTag then "TuftsVotingRecord"
      else if tag == "info:fedora/cm:Text.EAD" then "TuftsEad"
      else if tag == "info:fedora/cm:Image.4DS" then "TuftsImage"
      else if tag == "info:fedora/cm:Audio" then "TuftsAudio"
      else if tag == "info:fedora/cm:Audio.OralHistory" then "TuftsAudio"
      else if tag == "info:fedora/afmodel:TuftsVideo" then "TuftsVideo"
      else if tag == "info:fedora/cm:Text.RCR" then "TuftsRcr"
      else if tag == "info:fedora/cm:Object.Generic" then "TuftsGenericObject"
      else tag
  }

  /** `candidates`: the models, in order, each translated through the table. */
  function Candidates(table: AliasTable, models: seq<string>): (r: seq<string>)
    ensures |r| == |models|
    ensures forall i :: 0 <= i < |models| ==> r[i] == Alias(table, models[i])
    decreases |models|
  {
    if |models| == 0 then []
    else [Alias(table, models[0])] + Candidates(table, models[1..])
  }

  /** The lazy reading of `determine_target`: the class of the first candidate that vets,
      or None when every candidate is rejected. */
  function FirstVetted(candidates: seq<string>, vet: string -> Option<string>): (r: Option<string>)
    ensures r.None? <==> forall i :: 0 <= i < |candidates| ==> vet(candidates[i]).None?
    ensures r.Some? ==>
      exists i :: 0 <= i < |candidates| && vet(candidates[i]) == r && (forall j :: 0 <= j < i ==> vet(candidates[j]).None?)
    decreases |candidates|
  {
    if |candidates| == 0 then None
    else if vet(candidates[0]).Some? then vet(candidates[0])
    else
      var r := FirstVetted(candidates[1..], vet);
      assert forall i :: 1 <= i < |candidates| ==> candidates[i] == candidates[1..][i - 1];
      r
  }

  /** `target`: resolution of a legacy object's models under one alias table. */
  function DetermineTarget(table: AliasTable, models: seq<string>, vet: string -> Option<string>)
    : Option<string>
  {
    FirstVetted(Candidates(table, models), vet)
  }

  /** `Array(candidates).map { |model| vet(model) }`. */
  function VetAll(candidates: seq<string>, vet: string -> Option<string>): (r: seq<Option<string>>)
    ensures |r| == |candidates|
    ensures forall i :: 0 <= i < |candidates| ==> r[i] == vet(candidates[i])
  {
    seq(|candidates|, i requires 0 <= i < |candidates| => vet(candidates[i]))
  }

  /** Ruby's `compact`: drop the nils, keep the order. */
  function Compact<T>(s: seq<Option<T>>): seq<T>
    decreases |s|
  {
    if |s| == 0 then []
    else if s[0].Some? then [s[0].value] + Compact(s[1..])
    else Compact(s[1..])
  }

  /** Ruby's `first`. */
  function First<T>(s: seq<T>): Option<T> {
    if |s| == 0 then None else Some(s[0])
  }

  /** The source vets every candidate eagerly and takes the first non-nil class; that is the
      same as stopping at the first candidate that vets. */
  lemma {:induction false} EagerResolutionAgrees(candidates: seq<string>, vet: string -> Option<string>)
    ensures First(Compact(VetAll(candidates, vet))) == FirstVetted(candidates, vet)
    decreases |candidates|
  {
    if |candidates| > 0 {
      assert VetAll(candidates, vet)[1..] == VetAll(candidates[1..], vet);
      EagerResolutionAgrees(candidates[1..], vet);
    }
  }

  /** The Tufts table is not injective: plain audio and oral-history audio share a class. */
  lemma TuftsAliasesNotInjective()
    ensures "info:fedora/cm:Audio" != "info:fedora/cm:Audio.OralHistory"
    ensures Alias(TuftsTable, "info:fedora/cm:Audio") == "TuftsAudio"
    ensures Alias(TuftsTable, "info:fedora/cm:Audio.OralHistory") == "TuftsAudio"
  {
  }

  /** The two tables translate a tag alike exactly when it is the voting-record tag or a tag
      the Tufts table leaves alone. */
  lemma VotingRecordAliasAgrees(tag: string)
    ensures Alias(TuftsTable, tag) == Alias(VotingRecordTable, tag) <==>
      tag == VotingRecordTag || Alias(TuftsTable, tag) == tag
  {
  }

  /** Translating twice is translating once: no Tufts class name is itself an aliased tag. */
  lemma {:induction false} TuftsCandidatesIdempotent(models: seq<string>)
    ensures Candidates(TuftsTable, Candidates(TuftsTable, models)) == Candidates(TuftsTable, models)
  {
    var once := Candidates(TuftsTable, models);
    forall i | 0 <= i < |models|
      ensures Alias(TuftsTable, once[i]) == once[i]
    {
      TuftsAliasSettles(models[i]);
    }
  }

  /** Every aliased tag starts with 'i' (for "info:"), so a name starting with 'T' is left
      alone. */
  lemma NotTuftsAliased(name: string)
    requires |name| > 0 && name[0] == 'T'
    ensures Alias(TuftsTable, name) == name
  {
  }

  /** Every Tufts class name starts with 'T', so an alias is never itself aliased. */
  lemma TuftsAliasSettles(tag: string)
    ensures Alias(TuftsTable, Alias(TuftsTable, tag)) == Alias(TuftsTable, tag)
  {
    if Alias(TuftsTable, tag) != tag {
      NotTuftsAliased(Alias(TuftsTable, tag));
    }
  }

  /** Resolution follows the order of the models: with two tags that both vet, swapping
      them changes the target. */
  lemma ResolutionIsOrderSensitive(vet: string -> Option<string>)
    requires vet("TuftsPdf") == Some("TuftsPdf") && vet("TuftsTei") == Some("TuftsTei")
    ensures DetermineTarget(TuftsTable, ["info:fedora/cm:Text.PDF", "info:fedora/cm:Text.TEI"], vet) == Some("TuftsPdf")
    ensures DetermineTarget(TuftsTable, ["info:fedora/cm:Text.TEI", "info:fedora/cm:Text.PDF"], vet) == Some("TuftsTei")
  {
    var c1 := Candidates(TuftsTable, ["info:fedora/cm:Text.PDF", "info:fedora/cm:Text.TEI"]);
    assert c1[0] == "TuftsPdf";
    var c2 := Candidates(TuftsTable, ["info:fedora/cm:Text.TEI", "info:fedora/cm:Text.PDF"]);
    assert c2[0] == "TuftsTei";
  }
}

=== FILE: target_constructor.dfy ===
/** `TargetConstructor`, the generic constructor: resolves the target through the
    voting-record alias table and copies the Dublin Core titles. */
module TargetConstructor {

  import opened Wrappers
  import opened Errors
  import opened Fedora3
  import opened Destination
  import Resolution

  function Target(source: LegacyObject, vet: string -> Option<string>): Option<string> {
    Resolution.DetermineTarget(Resolution.VotingRecordTable, source.models, vet)
  }

  /** `process_titles`: every `dc:title` text of DCA-META, in document order. The query
      raises when DCA-META has no root element or its root does not declare `dc`. */
  function ProcessTitles(source: LegacyObject): (r: Result<seq<string>, Exception>)
    ensures r.Failure? <==> !PrefixResolves(source, DcaMeta, DcPrefix)
    ensures r.Failure? ==> r.error == UndefinedNamespacePrefix
    ensures r.Success? ==>
      (r.value == [] <==> forall i :: 0 <= i < |Document(source, DcaMeta)| ==> Document(source, DcaMeta)[i].name != "dc:title")
    ensures r.Success? ==> forall t :: t in r.value ==>
      exists e :: e in Document(source, DcaMeta) && e.name == "dc:title" && e.text == t
    ensures r.Success? ==> r.value == MatchingTexts(Document(source, DcaMeta), "dc:title")
  {
    if !PrefixResolves(source, DcaMeta, DcPrefix) then Failure(UndefinedNamespacePrefix)
    else
      MatchingTextsEmpty(Document(source, DcaMeta), "dc:title");
      var titles := MatchingTexts(Document(source, DcaMeta), "dc:title");
      assert forall t :: t in titles ==> exists i :: 0 <= i < |titles| && titles[i] == t;
      assert forall i :: 0 <= i < |titles| ==> Matching(Document(source, DcaMeta), "dc:title")[i] in Matching(Document(source, DcaMeta), "dc:title");
      Success(titles)
  }

  /** `build`: raise when no candidate vets; otherwise create a work of the target class
      and give it its title list, which raises when the titles cannot be queried. Nothing
      else is set: no legacy pid, no `f3_pid`, no RELS-EXT values, no file sets. */
  function Build(source: LegacyObject, vet: string -> Option<string>): (r: Result<Work, Exception>)
    ensures Target(source, vet).None? ==> r == Failure(NoQualifiedTargets(source.pid))
    ensures Target(source, vet).Some? && !PrefixResolves(source, DcaMeta, DcPrefix) ==> r == Failure(UndefinedNamespacePrefix)
    ensures r.Success? <==> Target(source, vet).Some? && PrefixResolves(source, DcaMeta, DcPrefix)
    ensures r.Success? ==>
      && Some(r.value.className) == Target(source, vet)
      && r.value.depositor == DefaultDepositor
      && r.value.attributes == map["title" := ProcessTitles(source).value]
      && r.value.fileSets == []
      && r.value.visibility == Private
      && r.value.legacyPid.None? && r.value.f3Pid.None? && r.value.relsext == map[]
  {
    match Target(source, vet)
    case None => Failure(NoQualifiedTargets(source.pid))
    case Some(cls) =>
      match ProcessTitles(source)
      case Failure(e) => Failure(e)
      case Success(titles) => Success(NewWork(cls, DefaultDepositor).(attributes := map["title" := titles]))
  }
}

=== FILE: text.dfy ===
/** String helpers standing in for the Ruby string operations the migration code uses:
    `File.basename`, `split(':').first`, `index('#')`, `String#match` on a literal
    namespace, and `Integer#to_s`. */
module Text {

  import opened Wrappers

  /** The longest suffix of `s` free of `c`: everything after the last `c`, or all of `s`. */
  function SuffixAfterLast(s: string, c: char): (r: string)
    ensures |r| <= |s| && r == s[|s| - |r|..]
    ensures c !in r
    ensures |r| < |s| ==> s[|s| - |r| - 1] == c
    decreases |s|
  {
    if |s| == 0 then ""
    else if s[|s| - 1] == c then ""
    else
      var r' := SuffixAfterLast(s[..|s| - 1], c);
      assert s[..|s| - 1][|s| - 1 - |r'|..] + [s[|s| - 1]] == s[|s| - 1 - |r'|..];
      r' + [s[|s| - 1]]
  }

  /** The longest prefix of `s` free of `c`: everything before the first `c`, or all of `s`. */
  function PrefixBeforeFirst(s: string, c: char): (r: string)
    ensures |r| <= |s| && r == s[..|r|]
    ensures c !in r
    ensures |r| < |s| ==> s[|r|] == c
    decreases |s|
  {
    if |s| == 0 then ""
    else if s[0] == c then ""
    else [s[0]] + PrefixBeforeFirst(s[1..], c)
  }

  /** `s[s.index(c) + 1 .. s.length]`, or None where Ruby's `index` gives nil. */
  function SuffixAfterFirst(s: string, c: char): (r: Option<string>)
    ensures r.None? <==> c !in s
    ensures r.Some? ==>
      var k := |s| - |r.value| - 1;
      0 <= k && s[k] == c && c !in s[..k] && r.value == s[k + 1..]
  {
    var p := PrefixBeforeFirst(s, c);
    if |p| == |s| then
      assert p == s;
      None
    else
      Some(s[|p| + 1..])
  }

  /** `sub` occurs somewhere in `s` (a literal pattern given to `String#match`). */
  predicate Contains(s: string, sub: string)
    decreases |s|
  {
    sub <= s || (|s| > 0 && Contains(s[1..], sub))
  }

  lemma {:induction false} ContainsInfix(a: string, sub: string, b: string)
    ensures Contains(a + sub + b, sub)
    decreases |a|
  {
    if |a| == 0 {
      assert a + sub + b == sub + b;
      assert sub <= sub + b;
    } else {
      assert (a + sub + b)[1..] == a[1..] + sub + b;
      ContainsInfix(a[1..], sub, b);
    }
  }

  predicate IsDigit(ch: char) {
    '0' <= ch <= '9'
  }

  predicate AllDigits(s: string) {
    forall i :: 0 <= i < |s| ==> IsDigit(s[i])
  }

  function DigitChar(d: nat): (ch: char)
    requires d < 10
    ensures IsDigit(ch) && (ch as int) - ('0' as int) == d
  {
    (('0' as int) + d) as char
  }

  /** The number a string of decimal digits denotes. */
  function DecimalValue(s: string): nat
    requires AllDigits(s)
    decreases |s|
  {
    if |s| == 0 then 0
    else DecimalValue(s[..|s| - 1]) * 10 + ((s[|s| - 1] as int) - ('0' as int))
  }

  /** `Integer#to_s` for a non-negative count: a non-empty digit string that reads back as `n`. */
  function DecimalString(n: nat): (r: string)
    ensures |r| >= 1 && AllDigits(r)
    ensures DecimalValue(r) == n
    decreases n
  {
    if n < 10 then [DigitChar(n)]
    else
      var r' := DecimalString(n / 10);
      var r := r' + [DigitChar(n % 10)];
      assert r[..|r| - 1] == r';
      r
  }
}

=== FILE: tufts_target_constructor.dfy ===
/** `TuftsTargetConstructor`: resolves the target class through the Tufts alias table,
    creates one file set per payload stream that has content, and maps descriptive and
    RELS-EXT metadata onto the new work. */
module TuftsTargetConstructor {

  import opened Wrappers
  import opened Errors
  import opened Fedora3
  import opened Destination
  import Resolution
  import Text

  const ArchivalWav := "ARCHIVAL_WAV"
  const ArchivalSound := "ARCHIVAL_SOUND"
  const GenericContent := "GENERIC-CONTENT"
  const RelsExt := "RELS-EXT"

  /** `val.index('#')` is nil for a property without '#', and nil + 1 raises. */
  const NilIndexError := Exception("NoMethodError", "undefined method `+' for nil:NilClass", [])

  /** `obj.send("relsext_<code>=", ...)` on a class without that writer. */
  function NoWriterError(code: string): Exception {
    Exception("NoMethodError", "undefined method `" + WriterName(code) + "'", [])
  }

  function WriterName(code: string): string {
    "relsext_" + code + "="
  }

  /** Which `relsext_<code>=` writers the target class has, given the class registry's
      `respond_to?`. */
  function Writable(respondsTo: (string, string) -> bool, cls: string): string -> bool {
    code => respondsTo(cls, WriterName(code))
  }

  /** The constructor's state: source object, primary and optional secondary payload
      stream ids, and the depositor's user key. */
  datatype Constructor = Constructor(
    source: LegacyObject,
    primary: string,
    secondary: Option<string>,
    depositor: string)

  function Target(c: Constructor, vet: string -> Option<string>): Option<string> {
    Resolution.DetermineTarget(Resolution.TuftsTable, c.source.models, vet)
  }

  /** The streams `build` hands to `create_and_add_payload`, in call order. */
  function PayloadStreams(primary: string, secondary: Option<string>): (r: seq<string>)
    ensures 1 <= |r| <= 3 && r[0] == primary
    ensures secondary.Some? ==> |r| >= 2 && r[1] == secondary.value
    ensures forall s :: s in r <==> s == primary || secondary == Some(s) || (s == ArchivalSound && primary == ArchivalWav)
    ensures primary == ArchivalWav ==> r[|r| - 1] == ArchivalSound
    ensures |r| == 1 + (if secondary.Some? then 1 else 0) + (if primary == ArchivalWav then 1 else 0)
  {
    [primary]
      + (if secondary.Some? then [secondary.value] else [])
      + (if primary == ArchivalWav then [ArchivalSound] else [])
  }

  /** Ruby's `NodeSet#text`: the texts of all nodes, concatenated. */
  function Concat(texts: seq<string>): string
    decreases |texts|
  {
    if |texts| == 0 then "" else texts[0] + Concat(texts[1..])
  }

  /** The `<link>` text of a GENERIC-CONTENT document (namespaces removed). */
  function LinkText(doc: seq<Element>): string {
    Concat(MatchingTexts(StripNamespaces(doc), "link"))
  }

  /** The title list a payload's file set receives. */
  function FileSetTitle(source: LegacyObject, stream: string): seq<string> {
    if stream == GenericContent then [Text.SuffixAfterLast(LinkText(Document(source, stream)), '/')]
    else [DatastreamOf(source, stream).labelText]
  }

  function PayloadFileSet(source: LegacyObject, stream: string, depositor: string): FileSet {
    FileSet(stream, FileSetTitle(source, stream), depositor, Public)
  }

  /** `create_and_add_payload` over the payload streams: a stream with nil content is
      skipped, every other stream becomes one public file set. */
  function CreatePayloads(source: LegacyObject, streams: seq<string>, depositor: string): (r: seq<FileSet>)
    ensures |r| <= |streams|
    ensures forall fs :: fs in r ==>
      fs.stream in streams && HasContent(source, fs.stream) && fs == PayloadFileSet(source, fs.stream, depositor)
    ensures forall s :: s in streams && HasContent(source, s) ==> PayloadFileSet(source, s, depositor) in r
    decreases |streams|
  {
    if |streams| == 0 then []
    else
      var rest := CreatePayloads(source, streams[1..], depositor);
      if HasContent(source, streams[0]) then [PayloadFileSet(source, streams[0], depositor)] + rest
      else rest
  }

  /** File sets appear in the order their streams are attempted. */
  lemma {:induction false} CreatePayloadsAppend(source: LegacyObject, a: seq<string>, b: seq<string>, depositor: string)
    ensures CreatePayloads(source, a + b, depositor) == CreatePayloads(source, a, depositor) + CreatePayloads(source, b, depositor)
    decreases |a|
  {
    if |a| == 0 {
      assert a + b == b;
    } else {
      assert (a + b)[1..] == a[1..] + b;
      CreatePayloadsAppend(source, a[1..], b, depositor);
    }
  }

  /** The RELS-EXT predicate name: the text after the first '#' of its URI. */
  function ShortCode(property: string): Option<string> {
    Text.SuffixAfterFirst(property, '#')
  }

  /** `field.values.first` for each element: its first attribute value, or nil. */
  function FirstValues(elements: seq<Element>): (r: seq<Option<string>>)
    ensures |r| == |elements|
    ensures forall i :: 0 <= i < |elements| ==> r[i] == Resolution.First(elements[i].attributeValues)
  {
    seq(|elements|, i requires 0 <= i < |elements| => Resolution.First(elements[i].attributeValues))
  }

  function RelsExtValues(doc: seq<Element>, code: string): seq<Option<string>> {
    FirstValues(Matching(doc, code))
  }

  /** Every property URI has a '#', so `val.index('#')` never returns nil. */
  predicate AllCoded(properties: seq<string>) {
    forall k :: 0 <= k < |properties| ==> ShortCode(properties[k]).Some?
  }

  /** `after` is `before` with `relsext_<code>` set to the matching elements' first values
      for each property whose code matches at least one element, and nothing else changed. */
  predicate RelsExtAssigned(before: map<string, seq<Option<string>>>, after: map<string, seq<Option<string>>>,
                            properties: seq<string>, doc: seq<Element>)
    requires AllCoded(properties)
  {
    && before.Keys <= after.Keys
    && (forall code :: code in after ==>
          (code in before && after[code] == before[code]) ||
          (after[code] == RelsExtValues(doc, code) && |after[code]| > 0 &&
           exists k :: 0 <= k < |properties| && ShortCode(properties[k]) == Some(code)))
    && (forall k :: 0 <= k < |properties| && |RelsExtValues(doc, ShortCode(properties[k]).value)| > 0 ==>
          ShortCode(properties[k]).value in after &&
          after[ShortCode(properties[k]).value] == RelsExtValues(doc, ShortCode(properties[k]).value))
  }

  /** What one property of `process_relsext_metadata` raises, if anything, in the order
      the loop body meets it: no '#' (nil + 1); an empty short code, which makes the query
      `//` alone; a prefixed short code, whose prefix is undeclared once the namespaces are
      removed; values for a writer the class does not have. */
  function PropertyError(property: string, doc: seq<Element>, writable: string -> bool): Option<Exception> {
    match ShortCode(property)
    case None => Some(NilIndexError)
    case Some(code) =>
      if |code| == 0 then Some(InvalidExpression)
      else if ':' in code then Some(UndefinedNamespacePrefix)
      else if |RelsExtValues(doc, code)| > 0 && !writable(code) then Some(NoWriterError(code))
      else None
  }

  predicate AllApplicable(properties: seq<string>, doc: seq<Element>, writable: string -> bool) {
    forall k :: 0 <= k < |properties| ==> PropertyError(properties[k], doc, writable).None?
  }

  /** `e` is what the first property that raises raises. */
  predicate FailsFirstWith(properties: seq<string>, doc: seq<Element>, writable: string -> bool, e: Exception) {
    exists k :: 0 <= k < |properties| && PropertyError(properties[k], doc, writable) == Some(e) &&
      forall j :: 0 <= j < k ==> PropertyError(properties[j], doc, writable).None?
  }

  lemma FailsFirstWithLater(properties: seq<string>, doc: seq<Element>, writable: string -> bool, e: Exception)
    requires |properties| > 0 && PropertyError(properties[0], doc, writable).None?
    requires FailsFirstWith(properties[1..], doc, writable, e)
    ensures FailsFirstWith(properties, doc, writable, e)
  {
    var k :| 0 <= k < |properties[1..]| && PropertyError(properties[1..][k], doc, writable) == Some(e) &&
      forall j :: 0 <= j < k ==> PropertyError(properties[1..][j], doc, writable).None?;
    assert forall j :: 1 <= j < k + 1 ==> properties[j] == properties[1..][j - 1];
    assert PropertyError(properties[k + 1], doc, writable) == Some(e);
  }

  /** `process_relsext_metadata` over the vocabulary's properties, on the namespace-stripped
      RELS-EXT document: the first property that raises ends it; otherwise `relsext_<code>`
      is assigned only when some element matches. */
  function ProcessRelsExt(relsext: map<string, seq<Option<string>>>, properties: seq<string>, doc: seq<Element>,
                          writable: string -> bool)
    : (r: Result<map<string, seq<Option<string>>>, Exception>)
    ensures r.Failure? <==> !AllApplicable(properties, doc, writable)
    ensures r.Failure? ==> FailsFirstWith(properties, doc, writable, r.error)
    ensures r.Success? ==> AllCoded(properties) && RelsExtAssigned(relsext, r.value, properties, doc)
    decreases |properties|
  {
    if |properties| == 0 then Success(relsext)
    else
      assert forall k :: 1 <= k < |properties| ==> properties[k] == properties[1..][k - 1];
      match PropertyError(properties[0], doc, writable)
      case Some(e) => Failure(e)
      case None =>
        var code := ShortCode(properties[0]).value;
        var values := RelsExtValues(doc, code);
        var next := if |values| == 0 then relsext else relsext[code := values];
        var r := ProcessRelsExt(next, properties[1..], doc, writable);
        if r.Success? then RelsExtAssignedStep(relsext, next, r.value, properties, doc); r
        else FailsFirstWithLater(properties, doc, writable, r.error); r
  }

  /** One property of `process_relsext_metadata`: assigning its values (when there are any)
      and then the remaining properties is assigning all of them. */
  lemma RelsExtAssignedStep(before: map<string, seq<Option<string>>>, next: map<string, seq<Option<string>>>,
                            after: map<string, seq<Option<string>>>, properties: seq<string>, doc: seq<Element>)
    requires |properties| > 0 && AllCoded(properties)
    requires var code := ShortCode(properties[0]).value;
      next == if |RelsExtValues(doc, code)| == 0 then before else before[code := RelsExtValues(doc, code)]
    requires AllCoded(properties[1..]) && RelsExtAssigned(next, after, properties[1..], doc)
    ensures RelsExtAssigned(before, after, properties, doc)
  {
    var code := ShortCode(properties[0]).value;
    assert forall k :: 1 <= k < |properties| ==> properties[k] == properties[1..][k - 1];
    forall c | c in after
      ensures (c in before && after[c] == before[c]) ||
              (after[c] == RelsExtValues(doc, c) && |after[c]| > 0 &&
               exists k :: 0 <= k < |properties| && ShortCode(properties[k]) == Some(c))
    {
      if !(c in next && after[c] == next[c]) {
        var k :| 0 <= k < |properties[1..]| && ShortCode(properties[1..][k]) == Some(c);
        assert ShortCode(properties[k + 1]) == Some(c);
      } else if c == code && |RelsExtValues(doc, code)| > 0 {
        assert ShortCode(properties[0]) == Some(c);
      }
    }
  }

  /** `process_desc_metadata`: the seven descriptive fields and `legacy_pid`. */
  function ProcessDescMetadata(obj: Work, source: LegacyObject): Work {
    obj.(attributes := ApplyRules(obj.attributes, DescriptiveRules, Document(source, DcaMeta)),
         legacyPid := Some(source.pid))
  }

  /** The namespace-stripped RELS-EXT document `process_relsext_metadata` queries. */
  function RelsExtDocument(source: LegacyObject): seq<Element> {
    StripNamespaces(Document(source, RelsExt))
  }

  /** What `build` has made of the target class before RELS-EXT: a public work with the
      depositor's metadata, the payload file sets in stream order, the descriptive fields and
      `legacy_pid`; the descriptive queries raise when DCA-META has no root declaring `dc`. */
  function PreparedWork(c: Constructor, cls: string): (r: Result<Work, Exception>)
    ensures r.Failure? <==> !PrefixResolves(c.source, DcaMeta, DcPrefix)
    ensures r.Failure? ==> r.error == UndefinedNamespacePrefix
    ensures r.Success? ==>
      && r.value.className == cls && r.value.depositor == c.depositor && r.value.visibility == Public
      && r.value.legacyPid == Some(c.source.pid) && r.value.relsext == map[]
      && r.value.fileSets == CreatePayloads(c.source, PayloadStreams(c.primary, c.secondary), c.depositor)
      && Described(r.value.attributes, Document(c.source, DcaMeta))
      && r.value.attributes.Keys == DescriptiveAttributes && r.value.f3Pid.None?
  {
    var created := NewWork(cls, c.depositor).(visibility := Public);
    var withPayloads := created.(fileSets := CreatePayloads(c.source, PayloadStreams(c.primary, c.secondary), c.depositor));
    if !PrefixResolves(c.source, DcaMeta, DcPrefix) then Failure(UndefinedNamespacePrefix)
    else
      DescriptiveRulesAssign(withPayloads.attributes, Document(c.source, DcaMeta));
      DescriptiveRulesKeys(Document(c.source, DcaMeta));
      Success(ProcessDescMetadata(withPayloads, c.source))
  }

  /** `build`: raise when no target vets; otherwise the prepared work with its RELS-EXT
      values, or the first exception either step raises. */
  function Build(c: Constructor, vet: string -> Option<string>, properties: seq<string>,
                 respondsTo: (string, string) -> bool)
    : (r: Result<Work, Exception>)
    ensures Target(c, vet).None? ==> r == Failure(NoQualifiedTargets(c.source.pid))
    ensures Target(c, vet).Some? && !PrefixResolves(c.source, DcaMeta, DcPrefix) ==> r == Failure(UndefinedNamespacePrefix)
    ensures r.Success? <==>
      && Target(c, vet).Some? && PrefixResolves(c.source, DcaMeta, DcPrefix)
      && AllApplicable(properties, RelsExtDocument(c.source), Writable(respondsTo, Target(c, vet).value))
    ensures r.Failure? && Target(c, vet).Some? && PrefixResolves(c.source, DcaMeta, DcPrefix) ==>
      FailsFirstWith(properties, RelsExtDocument(c.source), Writable(respondsTo, Target(c, vet).value), r.error)
    ensures r.Success? ==>
      && Some(r.value.className) == Target(c, vet)
      && r.value.depositor == c.depositor
      && r.value.visibility == Public
      && r.value.legacyPid == Some(c.source.pid)
      && r.value.fileSets == CreatePayloads(c.source, PayloadStreams(c.primary, c.secondary), c.depositor)
    ensures r.Success? ==> Described(r.value.attributes, Document(c.source, DcaMeta))
    ensures r.Success? ==> r.value.attributes.Keys == DescriptiveAttributes && r.value.f3Pid.None?
    ensures r.Success? ==> AllCoded(properties) && RelsExtAssigned(map[], r.value.relsext, properties, RelsExtDocument(c.source))
  {
    match Target(c, vet)
    case None => Failure(NoQualifiedTargets(c.source.pid))
    case Some(cls) =>
      match PreparedWork(c, cls)
      case Failure(e) => Failure(e)
      case Success(prepared) =>
        match ProcessRelsExt(prepared.relsext, properties, RelsExtDocument(c.source), Writable(respondsTo, cls))
        case Failure(e) => Failure(e)
        case Success(rels) => Success(prepared.(relsext := rels))
  }
}

=== FILE: voting_record_target_constructor.dfy ===
/** `VotingRecordTargetConstructor`: resolves the target through the voting-record alias
    table, always attaches one public file set for RECORD-XML, and maps the seven
    descriptive fields. */
module VotingRecordTargetConstructor {

  import opened Wrappers
  import opened Errors
  import opened Fedora3
  import opened Destination
  import Resolution

  const RecordXml := "RECORD-XML"

  function Target(source: LegacyObject, vet: string -> Option<string>): Option<string> {
    Resolution.DetermineTarget(Resolution.VotingRecordTable, source.models, vet)
  }

  /** `build`: raise when no candidate vets; otherwise a public work holding the RECORD-XML
      file set (titled with that datastream's label), the descriptive fields and `f3_pid`,
      and nothing else (no legacy pid, no RELS-EXT values).
      The descriptive queries raise when DCA-META has no root element declaring `dc`. */
  function Build(source: LegacyObject, vet: string -> Option<string>): (r: Result<Work, Exception>)
    ensures Target(source, vet).None? ==> r == Failure(NoQualifiedTargets(source.pid))
    ensures Target(source, vet).Some? && !PrefixResolves(source, DcaMeta, DcPrefix) ==> r == Failure(UndefinedNamespacePrefix)
    ensures r.Success? <==> Target(source, vet).Some? && PrefixResolves(source, DcaMeta, DcPrefix)
    ensures r.Success? ==>
      && Some(r.value.className) == Target(source, vet)
      && r.value.depositor == DefaultDepositor
      && r.value.visibility == Public
      && r.value.f3Pid == Some(source.pid)
      && |r.value.fileSets| == 1
      && r.value.fileSets[0].stream == RecordXml
      && r.value.fileSets[0].title == [DatastreamOf(source, RecordXml).labelText]
      && r.value.fileSets[0].visibility == Public
      && r.value.fileSets[0].depositor == DefaultDepositor
      && r.value.legacyPid.None? && r.value.relsext == map[]
    ensures r.Success? ==> Described(r.value.attributes, Document(source, DcaMeta))
    ensures r.Success? ==> r.value.attributes.Keys == DescriptiveAttributes
  {
    match Target(source, vet)
    case None => Failure(NoQualifiedTargets(source.pid))
    case Some(cls) =>
      if !PrefixResolves(source, DcaMeta, DcPrefix) then Failure(UndefinedNamespacePrefix)
      else
        var recordSet := FileSet(RecordXml, [DatastreamOf(source, RecordXml).labelText], DefaultDepositor, Public);
        DescriptiveRulesAssign(map[], Document(source, DcaMeta));
        DescriptiveRulesKeys(Document(source, DcaMeta));
        Success(NewWork(cls, DefaultDepositor).(
          fileSets := [recordSet],
          attributes := ApplyRules(map[], DescriptiveRules, Document(source, DcaMeta)),
          f3Pid := Some(source.pid),
          visibility := Public))
  }
}

=== FILE: wrappers.dfy ===
/** Failure-compatible wrappers used throughout the model: `Option` for Ruby's
    nil-or-value, `Result` for a value or a raised exception. */
module Wrappers {

  datatype Option<+T> = None | Some(value: T) {

    /** The wrapped value, or `default` for None. */
    function GetOr(default: T): T {
      match this
      case Some(v) => v
      case None => default
    }
  }

  datatype Result<+R, +E> = Success(value: R) | Failure(error: E)
}
